=== FILE: README.md ===
# porcupine, modelled in Dafny

porcupine is a Rust windowing library over the Win32 API. This project models its core
and proves properties of it.

- **Per-window dispatch state** (`WindowData`, src/window.rs). Each window has:
  - a queue of events;
  - a re-entrancy count, where `None` means no scope is open;
  - a slot holding a deferred panic.

  `begin` opens a scope. Releasing the outermost scope hands the queued events to the user's handler, front to back. `catch_panic` and `propagate_panic` park a panic in the slot and raise it again later.
- **Window procedure** (src/wndproc.rs). `handle_window_message` runs as a small lifecycle machine over each window's user-data slot:
  - WM_NCCREATE installs fresh dispatch state;
  - WM_NCDESTROY frees that state and lowers the window count;
  - WM_GETMINMAXINFO may arrive before any data exists;
  - every other message runs inside one scope, under `catch_panic`.

  Both native entry points wrap this in `abort_on_panic`.
- **`create_window`**, the `DestroyWindow` that dropping a `Window` performs, and the flag derivation of `set_window_pos` (src/window.rs).
- **The client's window count** (src/client.rs). It is an `Option<NonZeroU32>`. Closing the last window posts the quit request.
- **The reactor** (src/reactor.rs):
  - `block_on` alternates between polling a future and draining the thread's message queue, with waits in between;
  - `drain_queue` dispatches messages until the queue is empty or WM_QUIT arrives;
  - `run` blocks on a future that never completes;
  - the wake event is modelled too.
- **Menus** (src/menu.rs). `MenuItem::take_info` builds the `MENUITEMINFOA` record and consumes the item's owned parts. `Menu` counts the items inserted into it.
- **Crate-level pieces** (src/lib.rs):
  - the `Error` type, with the trimming of the system message and the `Display` text;
  - the `strict` pointer helpers;
  - `abort`, `abort_with_message`, `abort_on_panic` and the `abort!` macro.

## How the model is built

- **Modules and files.** There is one module per source file:
  - `Lib` (lib.dfy);
  - `Clients` (client.dfy);
  - `Window` (window.dfy);
  - `WndProc` (wndproc.dfy);
  - `Reactor` (reactor.dfy);
  - `Menus` (menu.dfy).

  `Native` (native.dfy) stands in for the Win32 pieces the core calls: handles, messages, and the thread's queue as `PeekMessageA` and `PostQuitMessage` see it. `Wrappers` holds `Option` and `Result`.
- **How a call ends.** `Outcome` records one of four endings:
  - it returned a value;
  - it panicked with a payload (unwinding);
  - it aborted the process;
  - it reached undefined behaviour.

  Aborts and undefined behaviour are terminal.
- **Code that changes state is imperative.** Each such type is a class whose methods update fields in place:
  - `WindowData`;
  - `Client`;
  - `Desktop`: the windows of one window class, with their user-data slots;
  - `Reactor`;
  - `ThreadQueue`;
  - `MenuItem`;
  - `Menu`.

  Every method is proved against a function on values (`Begun`, `Released`, `Drained`, `HandleMessage`, `CreateOutcome`, `Drain`, `PollPhase`, `Taken`, `Inserted`, …). The properties the source promises are then proved about those functions as lemmas.
- **Native calls become inputs.** This covers:
  - the handle `CreateWindowExA`, `CreateEventW` or `CreateMenu` returns;
  - whether the system abandons a new window after WM_NCCREATE, so that `CreateWindowExA` fails after all;
  - whether `SetWindowPos`, `SetEvent`, `DuplicateHandle`, `CloseHandle` or `InsertMenuItemA` succeeded;
  - the thread's last error: the `GetLastError` code and the `FormatMessageA` text;
  - the script of wait results, where each wait gives the code `MsgWaitForMultipleObjectsEx` returns and the messages that arrived meanwhile;
  - the script of the future's poll results.
- **The user's event handler** is an oracle. It tells how its k-th call on a window ends. A `Desktop` holds one oracle for every window of the class, indexed only by each window's own call count. A handler that behaves differently per window (by its user data or its handle) therefore cannot be expressed at the class level.
- **`std`.** Whether the crate is built with `std` is a parameter. Without it, `catch_panic` and `propagate_panic` are pass-throughs.
- **Flag words.** Each Win32 flag word (`fMask`, `fType`, `fState`) is kept as a record with one boolean per flag. Its number is given by `MaskValue`, `TypeValue` and `StateValue`, and `FlagValuesDistinct` proves these encodings one-to-one.
- **Unexpected wait results.** An unexpected result from `MsgWaitForMultipleObjectsEx` is logged, and the queue is drained again without polling the future (src/reactor.rs:113-115). `DrainPhase` models that.

## Model

| member | source | states |
|---|---|---|
| Lib.Abort | src/lib.rs:182-199 | `abort` ends the process: the outcome is an abort, which never continues |
| Lib.AbortWithMessage | src/lib.rs:202-214 | `abort_with_message` always ends in an abort that carries the given message |
| Lib.AbortOnPanic | src/lib.rs:217-229 | a normal return of `f` passes through unchanged; a panic becomes an abort with the guard's message; the result is never a panic |
| Lib.AbortMacro | src/lib.rs:14-20 | `abort!(msg)` always ends in an abort carrying `msg` |
| Lib.TrimmedLength | src/lib.rs:112-114 | the saturating subtraction of 2: n-2 when n >= 2, else 0, never more than n |
| Lib.LastErrorOf | src/lib.rs:75-131 | the error keeps the code and the function name; the message is absent exactly when `FormatMessageA` wrote nothing; otherwise it is the prefix of the system text whose length is the text's length minus 2, saturating at 0 |
| Lib.LastError | src/lib.rs:75-131 | `Error::last_error`, which trims by lowering the written count, yields `LastErrorOf` |
| Lib.TrimDropsCrLf | src/lib.rs:108-121 | a system message ending in CR LF is kept without that line end |
| Lib.ParseDecimalOfDecimal | src/lib.rs:143 | the decimal text of the error code reads back as the same number |
| Lib.Fmt | src/lib.rs:134-145 | the formatter, written piece by piece, produces `Display(e)` |
| Lib.DisplayRoundTrip | src/lib.rs:134-145 | the text starts with "<function> failed" and the error code can be read back from its end |
| Lib.DisplayShowsMessage | src/lib.rs:134-145 | ": <message>" follows "failed" exactly when a message exists; otherwise " (error code: <code>)" follows directly |
| Lib.Invalid | src/lib.rs:159-161 | `invalid(v)` is the pointer whose address is v's bit pattern |
| Lib.Addr | src/lib.rs:165-167 | `addr(p)` is the signed value of p's address bits |
| Lib.Expose | src/lib.rs:171-173 | `expose(p)` is `addr(p)` |
| Lib.Reconstitute | src/lib.rs:177-179 | `reconstitute(v)` is `invalid(v)` |
| Lib.AddrOfInvalid | src/lib.rs:159-167 | `addr(invalid(v)) == v` for every isize v |
| Lib.InvalidOfAddr | src/lib.rs:159-167 | `invalid(addr(p)) == p` for every pointer p |
| Lib.ReconstituteOfExpose | src/lib.rs:171-179 | `reconstitute(expose(p)) == p`, and `expose(reconstitute(addr(p))) == addr(p)` |
| Native.Peek | src/reactor.rs:144-149 | `PeekMessageA(PM_REMOVE)` returns nothing exactly when nothing is posted and no quit is pending; otherwise it removes the oldest posted message; once the queue is empty, a pending quit comes out as WM_QUIT, once |
| Native.ThreadQueue.PeekMessage | src/reactor.rs:144 | the call changes the queue as `Peek` says and returns its message |
| Native.ThreadQueue.PostQuitMessage | src/client.rs:100-104 | `PostQuitMessage(0)` sets the quit request and leaves the posted messages alone |
| Native.ThreadQueue.Arrive | src/reactor.rs:96-98 | messages that arrive during a wait join the tail of the queue |
| Clients.CountOf | src/client.rs:47-49 | `window_count()` is 0 exactly for `None`, else the stored count |
| Clients.Incremented | src/client.rs:63-74 | `None` becomes 1 and n becomes n+1; it aborts exactly when n is u32::MAX |
| Clients.Decremented | src/client.rs:77-97 | it panics exactly on `None`; otherwise the count drops by one, and the quit request is posted exactly when it was 1 (the count becomes `None`) |
| Clients.DecrementUndoesIncrement | src/client.rs:63-97 | an increment followed by a decrement restores the count, and posts the quit request only when starting from `None` |
| Clients.ClosingAllWindowsQuitsOnce | src/client.rs:77-97 | k of n windows closing leaves n-k and posts no quit before the last; closing all n leaves `None` with exactly one quit request |
| Clients.Client.constructor | src/client.rs:40-44 | a new client has count `None` |
| Clients.Client.WindowCount | src/client.rs:47-49 | reports 0 for `None`, else the stored count |
| Clients.Client.Clone | src/client.rs:20-21 | a clone is the same shared object (the `Rc`), so clones share one count |
| Clients.Client.IncrementWindowCount | src/client.rs:63-74 | the new count is `Incremented` of the old; the count is unchanged when it aborts |
| Clients.Client.DecrementWindowCount | src/client.rs:77-97 | `None` panics with `unreachable!` and changes nothing; otherwise the count is `Decremented` and the quit request is posted exactly when the last window went |
| Clients.Client.Quit | src/client.rs:100-104 | posts the quit request and leaves the count and the posted messages unchanged |
| Window.Drained | src/window.rs:795-804 | `process` leaves the count and the panic slot as they were and ends by returning or with the handler's panic |
| Window.DrainedSkipsReturningCalls | src/window.rs:795-804 | handler calls that return hand over the queue's front events one by one, in order |
| Window.DrainedStopsAtPanic | src/window.rs:795-804 | when the k-th handler call panics, the first k+1 events are delivered, the rest stay queued, and the panic propagates |
| Window.DrainedHandsOverInOrder | src/window.rs:795-804 | events go to the handler front to back up to the first panicking call; with none, the queue is left empty and all events are delivered in order |
| Window.DrainedDeliversAll | src/window.rs:795-804 | if no handler call panics, `process` delivers every queued event in order and empties the queue |
| Window.Begun | src/window.rs:833-846 | `begin` takes `None` to 1 and n to n+1, and panics with "Re-entrancy count overflowed." at u32::MAX (with the guard taking effect once the count is raised) |
| Window.Released | src/window.rs:816-831 | a release at n>1 gives n-1 and runs no handler; at 1 the count becomes `None` and only then is the queue processed; at `None` it panics with "Re-entrancy count is not set." |
| Window.BeginOverflowLowersCount | src/window.rs:807-849 | `begin` as written, at count u32::MAX, panics but leaves the count at u32::MAX-1, where the corrected `Begun` leaves it at u32::MAX |
| Window.Caught | src/window.rs:743-765 | with `std`, a panic is parked in an empty slot and a second one aborts; a normal return changes nothing; without `std`, `f`'s ending passes through; with `std` nothing panics out |
| Window.Propagated | src/window.rs:736-758 | with `std`, a parked panic is taken out of the slot and raised again; an empty slot, or no `std`, changes nothing |
| Window.CatchThenPropagate | src/window.rs:736-750 | a panic caught into an empty slot is raised again unchanged by the next propagation, which empties the slot |
| Window.Dispatched | src/wndproc.rs:172-189 | the closure run in the scope keeps the count valid, leaves the panic slot alone, and ends by returning or panicking |
| Window.Handled | src/wndproc.rs:172-189 | the scope run under `catch_panic` keeps the dispatch state valid; with `std` no panic escapes, and without `std` nothing is ever parked |
| Window.OtherMessagesQueueNothing | src/wndproc.rs:172-189 | a message other than WM_CREATE pushes no event: outside every scope it only processes the queue as it stands; inside a scope it changes nothing and returns |
| Window.OutermostDispatch | src/wndproc.rs:172-189 | a message outside every scope leaves no scope open and processes the queue with `Created` appended exactly for WM_CREATE |
| Window.BeginTimesCounts | src/window.rs:833-846 | n nested `begin`s from `None` give count n |
| Window.BeginTimesFrom | src/window.rs:833-846 | n nested `begin`s from count k give k+n |
| Window.InnerReleasesRunNothing | src/window.rs:816-831 | releases of inner scopes only lower the count; no handler runs |
| Window.NestedScopesDeliverOnce | src/window.rs:807-849 | n nested `begin`s with events pushed in between, then n releases: the first n-1 releases deliver nothing; the last leaves count `None`, an empty queue, and every event delivered in push order |
| Window.WindowData.constructor | src/window.rs:769-787 | a new window's data has an empty queue, no scope open, no parked panic and nothing delivered |
| Window.WindowData.Push | src/window.rs:790-792 | the event joins the tail of the queue; the count and the panic slot are unchanged |
| Window.WindowData.Process | src/window.rs:795-804 | the `while let pop_front` loop ends in the state `Drained` gives |
| Window.WindowData.Begin | src/window.rs:833-846 | the count and the outcome are `Begun`'s |
| Window.WindowData.Release | src/window.rs:816-831 | the state and the outcome are `Released`'s |
| Window.WindowData.CatchPanic | src/window.rs:743-765 | the slot and the outcome are `Caught`'s; the queue, the count and the delivered events are unchanged |
| Window.WindowData.PropagatePanic | src/window.rs:736-758 | the slot and the outcome are `Propagated`'s; nothing else changes |
| Window.WindowData.OnMessage | src/wndproc.rs:172-189 | the state and the outcome are `Handled`'s |
| Window.PosFlagsBits | src/window.rs:305-336 | the flags handed to `SetWindowPos` keep all the caller's flags and add none but SWP_NOZORDER, SWP_NOMOVE and SWP_NOSIZE |
| Window.PosFlagsMarks | src/window.rs:305-336 | SWP_NOZORDER, SWP_NOMOVE and SWP_NOSIZE are each set exactly when the insert-after, position or size argument is absent |
| Window.SetWindowPos | src/window.rs:298-356 | an absent argument passes zeros (0 for insert-after) and its flag; a given one passes through (insert-after choices map to their HWND_* values); the result is `Ok` or the error tagged "SetWindowPos" |
| WndProc.Freed | src/wndproc.rs:142-154 | WM_NCDESTROY removes the window's data and lowers the window count; it returns normally exactly when a count was set |
| WndProc.HandledAt | src/wndproc.rs:172-189 | any other message for a window with data replaces that window's dispatch state by `Handled`'s and changes nothing else: not its user data, not the other windows, not the count, not the queue |
| WndProc.HandleMessage | src/wndproc.rs:80-193 | `handle_window_message` keeps every window's state valid, never changes which handles are windows and leaves the other windows' data alone; only WM_NCDESTROY touches the count or the thread's queue, and afterwards the window has no data |
| WndProc.ForeignHandlesIgnored | src/wndproc.rs:110-120 | a null handle, or a handle that is not a window, changes nothing and returns the default procedure's answer |
| WndProc.CreateSteps | src/wndproc.rs:122-164 | during creation, WM_GETMINMAXINFO with no data goes to the default procedure; WM_NCCREATE stores fresh state (no event, no scope); WM_CREATE then runs one scope on it |
| WndProc.FreshCreateHandled | src/wndproc.rs:172-189 | WM_CREATE on fresh state delivers exactly `Created`; a handler panic is parked with `std`, and escapes without it |
| WndProc.OutermostCreateDelivers | src/wndproc.rs:172-189 | WM_CREATE outside any scope pushes `Created` and, on release, delivers the queue and then `Created`, in order |
| WndProc.ReentrantCreateIsDeferred | src/wndproc.rs:172-189 | WM_CREATE inside an open scope only queues `Created`; no handler runs |
| WndProc.HandlerPanicIsParked | src/wndproc.rs:172-189 | for any message outside every scope, the first panicking handler call over the queue (with `Created` appended for WM_CREATE) ends in the window's panic slot with `std`: the events up to it are delivered, the rest stay queued, and the procedure returns normally; without `std` that panic escapes; with no panicking call the whole queue is delivered |
| WndProc.DestroyLastWindowQuits | src/wndproc.rs:142-154 | WM_NCDESTROY on the last window removes its data, resets the count to `None` and posts the quit request |
| WndProc.Destroyed | src/window.rs:164-171 | `DestroyWindow` sends WM_DESTROY and then WM_NCDESTROY through the window procedure: no panic escapes, every window's state stays valid, and when both return the window's data is gone and `IsWindow` rejects the handle |
| WndProc.DestroyIdleWindow | src/window.rs:164-171 | destroying a counted window with no scope open and nothing queued returns normally, removes its data and its handle, lowers the count by one and posts the quit request exactly when it was the last window |
| WndProc.CreationMessages | src/window.rs:79-94 | the messages sent during `CreateWindowExA` go through the window procedure, so no panic escapes; every window's state stays valid and the live handles are unchanged; when the system abandons the window, WM_NCDESTROY follows WM_NCCREATE and a normal return leaves the window without data |
| WndProc.CreationMessagesOnFreshHandle | src/wndproc.rs:122-189 | on a new handle the three creation messages store the user data with the state WM_CREATE leaves |
| WndProc.Finished | src/window.rs:106-120 | after the creation messages, a normal return of `create_window` is exactly `Ok(hwnd)`, and every window's state stays valid, also after the unwind of a re-raised panic has destroyed the window |
| WndProc.ParkedPanicDestroys | src/window.rs:106-171 | with a panic parked, `create_window` raises the count, takes the panic out of the slot and re-raises it; the unwind drops the `Window`, whose `DestroyWindow` runs, and the panic reaches the caller when that destruction returns |
| WndProc.CreateOutcome | src/window.rs:63-121 | handle 0 returns the error tagged "CreateWindowEx" and changes nothing; a normal return is `Ok(hwnd)`, for a non-null handle the system did not abandon |
| WndProc.CreateWindowSucceeds | src/window.rs:63-121 | with a non-null handle, no overflow and a handler that returns, creation yields `Ok(hwnd)` with the data installed, `Created` delivered and the count raised exactly once |
| WndProc.CreationPanicReachesCaller | src/window.rs:63-171 | with `std`, a handler panic during WM_CREATE reaches the caller of `create_window`; the unwind's `DestroyWindow` leaves the handles, the windows' data and the count as they were before, keeps the posted messages, and posts the quit request exactly when no window was counted before (or one was already pending) |
| WndProc.CreationPanicFinishes | src/window.rs:79-120 | with `std`, the creation messages park the handler's WM_CREATE panic in the new window's slot before `create_window` finishes |
| WndProc.CreationPanicParked | src/window.rs:106-171 | the parked creation panic is taken out of the slot once the window is counted, and the window is destroyed |
| WndProc.CreatedWindowDestroyed | src/window.rs:164-171 | destroying the window `create_window` has just counted returns normally and undoes the creation: handles, windows' data and count are back, and the quit request is posted exactly when it was the only window |
| WndProc.CreationPanicAbortsWithoutStd | src/wndproc.rs:32-54 | without `std`, a handler panic during creation escapes the window procedure, which aborts; the count is not raised |
| WndProc.AbandonedCreationIsFatal | src/window.rs:63-104 | a window the system abandons after WM_NCCREATE never yields the "CreateWindowEx" error: WM_NCDESTROY frees the user data and lowers a count `create_window` never raised; with no window counted that is `unreachable!`, which aborts; otherwise the count ends one lower and `create_window` frees the user data a second time |
| WndProc.Desktop.InstallData | src/wndproc.rs:124-141 | WM_NCCREATE's slot write: the window gets new data in the fresh state and nothing else changes |
| WndProc.Desktop.FreeData | src/wndproc.rs:142-154 | the state and the outcome are `Freed`'s |
| WndProc.Desktop.DispatchTo | src/wndproc.rs:155-189 | the state and the outcome are `HandledAt`'s |
| WndProc.Desktop.HandleWindowMessage | src/wndproc.rs:80-193 | the new state is `HandleMessage`'s; a normal return answers with the default procedure (`DefSubclassProc` or `DefWindowProcA`) for the same message |
| WndProc.Desktop.WindowProcedure | src/wndproc.rs:32-54 | under `abort_on_panic`, so no panic escapes: for the null handle or a handle that is no window, `GetClassLongPtrA` gives 0 and the debug assertion on it aborts; otherwise `handle_window_message` with `DefWindowProcA` |
| WndProc.Desktop.SubclassProcedure | src/wndproc.rs:57-78 | the same with `DefSubclassProc` |
| WndProc.Desktop.SendCreationMessages | src/window.rs:79-94 | for the window being created, the state and the outcome are `CreationMessages`' |
| WndProc.Desktop.PropagateAt | src/window.rs:201-210 | `propagate_panic` on one window: only its panic slot changes, as `Propagated` says |
| WndProc.Desktop.DestroyWindow | src/window.rs:164-171 | the state and the outcome are `Destroyed`'s; on a handle that is no window, `DestroyWindow` sends nothing and changes nothing |
| WndProc.Desktop.FinishCreate | src/window.rs:106-120 | the state and the outcome are `Finished`'s, including the destruction when a parked panic is re-raised |
| WndProc.Desktop.CreateWindow | src/window.rs:63-121 | the state and the outcome are `CreateOutcome`'s, for a window the system keeps or abandons |
| Reactor.NewEvent | src/reactor.rs:183-195 | `Event::new` succeeds exactly when `CreateEventW` returns a non-null handle; otherwise it returns the error tagged "CreateEventA" |
| Reactor.Set | src/reactor.rs:198-206 | `set` is `Ok` exactly when `SetEvent` succeeded; otherwise the error tagged "SetEvent" |
| Reactor.TryClone | src/reactor.rs:209-230 | `try_clone` gives the duplicated handle exactly when `DuplicateHandle` succeeded; otherwise the error tagged "DuplicateHandle" |
| Reactor.WakeByRef | src/reactor.rs:262-270 | `wake_by_ref` never fails: a failed `set` is only logged, and the logged error is `set`'s |
| Reactor.Dropped | src/reactor.rs:276-287 | dropping an event closes its handle; a failed `CloseHandle` is only logged, with the error tagged "CloseHandle", never returned |
| Reactor.RawHandOffClosesOnce | src/reactor.rs:233-287 | an event passed through `into_raw` and rebuilt by `from_raw` has its handle closed exactly once over both |
| Reactor.ClonesCloseOwnHandles | src/reactor.rs:209-287 | a `try_clone` duplicate owns its own handle: dropping it closes only the duplicate, and dropping both closes each handle once |
| Reactor.IntoRaw | src/reactor.rs:254-258 | `into_raw` closes nothing, and `from_raw` of its result gives the event back |
| Reactor.RawRoundTrip | src/reactor.rs:233-246 | `from_raw(raw(e)) == e` and `raw(from_raw(p)) == p` |
| Reactor.Drain | src/reactor.rs:135-172 | `messages` counts the dispatched messages plus the WM_QUIT when there was one; without WM_QUIT the queue is left empty |
| Reactor.ResumeStep | src/reactor.rs:142-159 | one `PeekMessageA` decides the rest of the drain: none ends it, WM_QUIT ends it counted, any other message is dispatched and the drain goes on |
| Reactor.DrainTakesPrefix | src/reactor.rs:142-169 | the dispatched messages are a prefix of the posted ones, in queue order, and contain no WM_QUIT |
| Reactor.DrainDispatchesAll | src/reactor.rs:142-169 | with no WM_QUIT posted, every message is dispatched in order and the queue is left empty; an empty queue gives `messages = 0, quit = false` |
| Reactor.DrainStopsAtFirstQuit | src/reactor.rs:153-158 | the first WM_QUIT is counted and not dispatched, sets `quit`, and leaves later messages queued |
| Reactor.ReadyFirst | src/reactor.rs:76-80 | a future ready at its first poll returns `Ok(Some(v))` and no message is touched |
| Reactor.QuitEndsBlockOn | src/reactor.rs:85-90 | a quit request pending when the future is not ready ends `block_on` with `Ok(None)` after dispatching the posted messages |
| Reactor.PendingNeverReady | src/reactor.rs:122-128 | for a future that is never ready, `block_on` never yields `Some` |
| Reactor.DrainTurn | src/reactor.rs:83-116 | one turn of the inner loop: WM_QUIT returns `Ok(None)`; code 0 polls again; `WAIT_FAILED` returns the error tagged "MsgWaitForMultipleObjectsEx"; 1 and any other code drain again |
| Reactor.Reactor.constructor | src/reactor.rs:55-59 | a new reactor holds its wake event and its thread's queue, and has dispatched nothing and signalled nothing |
| Reactor.NewReactor | src/reactor.rs:55-59 | `Reactor::new` succeeds exactly when the event is created, and then starts with nothing dispatched and no signal; otherwise it returns `Event::new`'s error |
| Reactor.Reactor.DrainQueue | src/reactor.rs:135-172 | the loop leaves the queue, the dispatched messages and the status as `Drain` says, with one signal per dispatched message |
| Reactor.Reactor.InnerTurn | src/reactor.rs:83-116 | one drain and one wait, continuing `DrainPhase` as `DrainTurn` says |
| Reactor.Reactor.DrainAndWait | src/reactor.rs:83-117 | the inner loop ends as `DrainPhase` says: it either polls again with what it dispatched so far, or ends `block_on` |
| Reactor.Reactor.BlockOn | src/reactor.rs:62-119 | the queue, the dispatched messages and the result are `PollPhase`'s, with one signal per dispatched message |
| Reactor.Reactor.Run | src/reactor.rs:122-128 | `run` blocks on a future that is never ready. The queue left behind, the messages dispatched and one signal per dispatched message are what the `block_on` loop gives for that future. `run` returns `Ok(())` exactly when `block_on` yields `Ok(None)`; errors pass through |
| Menus.FlagValuesDistinct | src/menu.rs:93-119 | each flag-word record stands for a different number: `MaskValue`, `TypeValue` and `StateValue` are one-to-one |
| Menus.BitmapHandle | src/menu.rs:222-236 | an owned bitmap passes its own handle; a predefined choice maps to one of the fixed HBMMENU_* values (2 to 11, never 4) |
| Menus.PredefinedBitmapsDistinct | src/menu.rs:222-236 | different predefined bitmap choices map to different HBMMENU_* handles |
| Menus.ByteCount | src/menu.rs:201-205 | for a string of at most u32::MAX bytes, `cch` is its byte length, not counting the NUL |
| Menus.InfoOfSteps | src/menu.rs:195-276 | the step-by-step build (kind, bitmap, ftype, fstate, checkmarks, submenu) yields the record `InfoOf` gives |
| Menus.Taken | src/menu.rs:195-276 | `take_info` panics exactly on an empty item and then changes nothing; otherwise it returns the item's record; it always leaves the item empty; it takes the bitmap, the checkmarks and the submenu, and copies ftype and fstate |
| Menus.TakeTwicePanics | src/menu.rs:200-218 | a second `take_info` on the same item panics |
| Menus.InfoValues | src/menu.rs:201-273 | the numeric mask: MIIM_STRING for strings; MIIM_FTYPE for the other kinds, an ftype or a radio check; MIIM_BITMAP, MIIM_STATE, MIIM_CHECKMARKS and MIIM_SUBMENU exactly when those parts are present. The type word holds the kind's MFT_* bit, MFT_RADIOCHECK when radio, and the ftype bits; the state word is fstate's |
| Menus.StringItemInfo | src/menu.rs:201-205 | a string item's record has only MIIM_STRING, its text, and `cch` equal to the byte length |
| Menus.MenuItem.FromString | src/menu.rs:279-281 | a string item: that text, and nothing else set |
| Menus.MenuItem.NewSeparator | src/menu.rs:284-286 | a separator item with nothing else set |
| Menus.MenuItem.NewMenuBreak | src/menu.rs:289-291 | a menu-break item with nothing else set |
| Menus.MenuItem.NewMenuBarBreak | src/menu.rs:294-296 | a menu-bar-break item with nothing else set |
| Menus.MenuItem.SetBitmap | src/menu.rs:174-177 | sets the bitmap and nothing else |
| Menus.MenuItem.Checkbox | src/menu.rs:180-193 | sets the checkmarks (checked, unchecked, radio) and nothing else |
| Menus.MenuItem.TakeInfo | src/menu.rs:195-276 | the record and the item's new state are `Taken`'s |
| Menus.Inserted | src/menu.rs:315-336 | `insert` returns `Ok` exactly when the item had content, the native insert succeeded and the new length stays below u32::MAX; the length rises by exactly one only after a successful native insert; a failed insert returns the error tagged "InsertMenuItemA"; an empty item's panic passes through |
| Menus.InsertTimesCounts | src/menu.rs:315-336 | after a series of inserts, the length has grown by the number that succeeded |
| Menus.Menu.constructor | src/menu.rs:307-310 | a new menu has length 0 and no items inserted |
| Menus.NewMenu | src/menu.rs:301-312 | `Menu::new` succeeds exactly when `CreateMenu` returns a non-null handle, with length 0; otherwise it returns the error tagged "CreateMenu" |
| Menus.Menu.Len | src/menu.rs:344-346 | `len()` is the item count |
| Menus.Menu.IsEmpty | src/menu.rs:349-351 | `is_empty()` holds exactly when `len()` is 0 |
| Menus.Menu.Insert | src/menu.rs:315-336 | the item is consumed as `Taken` says, even when the native insert fails; the result and the length are `Inserted`'s; the native call gets the index and the record |
| Menus.Menu.Push | src/menu.rs:339-341 | an insert at index `len` (cast to u32) |
| Menus.PushOntoNewMenu | src/menu.rs:370-376 | pushing a "Hello" item onto a new menu gives length 1 and a menu that is not empty |

## Left out

- Native behaviour is not modelled:
  - the semantics of the OS event object (auto-reset, duplicated handles) and of `CloseHandle`;
  - what `DispatchMessageA` and `TranslateMessage` do with a message: dispatching is only logged, and a dispatched message is not connected to any window procedure;
  - the window-long calls, apart from the user-data slot;
  - `GetClassLongPtrA`, apart from giving 0 for a handle that is no window; for every window it gives this class's data.

  `IsWindow` is the set of live handles; a handle leaves it when `DestroyWindow` has delivered WM_NCDESTROY. `WndProc.Desktop.Admit` and `WndProc.Desktop.Retire` are the small steps that add a handle to this set and remove it. `WndProc.AbortOnPanicDropsAnswer` is a helper lemma for the proofs of `DestroyWindow` and `SendCreationMessages`: a caller that ignores the window procedure's answer sees only how the call ended.
- Only three creation messages are modelled: WM_GETMINMAXINFO, WM_NCCREATE and WM_CREATE (or WM_NCDESTROY for an abandoned window). Other messages Windows sends during `CreateWindowExA` are not, and neither are calls the handler makes back into the window procedure while it runs.
- Window.WindowData.Process: the `RefCell` borrow that `process` holds over the whole drain (src/window.rs:796) is not modelled. A handler whose native call sends a message to its own window re-enters the procedure, and the inner `push` or `process` then panics with `BorrowMutError`. `catch_panic` parks that panic, or aborts when one is already parked. The model's handler cannot re-enter, so this path does not arise in it.
- Real `Future`/`Waker` polling is replaced by a script of poll results. `Event::wake` is `wake_by_ref`. The `event_listener` `MESSAGE_RECEIVED` and `wait_for_message` (src/reactor.rs:35-45) become a count of signals. `Client::wait_for_event` is not modelled, for the same reason.
- Reactor.Reactor.DrainAndWait: a wait script that runs out ends the loop with no result ("still blocked"), whereas the real wait blocks until something happens.
- `DrainStatus.messages` is a natural number, so its `usize` overflow is not modelled.
- Tracing output, the `Debug` impls, the `raw-window-handle` feature and the window-style constant tables are not modelled.
- `Client::desktop_window`, `Client::set_cursor_pos` and the other `AsWindow` calls are not modelled. These are `show`, `set_title`, `client_rect`, `window_rect`, `invalidate`, `client_to_screen`, `screen_to_client` and `get_dc`. Each is a single native call.
- `Window`'s `Drop` is modelled as `DestroyWindow` delivering WM_DESTROY and WM_NCDESTROY. The other messages `DestroyWindow` sends, and the destruction of child and owned windows, are not modelled.
- src/class.rs, src/dc.rs, src/bitmap.rs, src/gdi_object.rs, src/region.rs, src/module.rs and build.rs are not part of this model. They cover class registration, GDI handle wrappers, a concurrent module-handle cache and build probing.
- `Menu`'s `Drop` (`DestroyMenu`) and `into_handle` are not modelled.
- The `MENUITEMINFOA` fields `wID` and `dwItemData` are not modelled, because `take_info` leaves them zero. `dwTypeData` is kept as the string it points to.
- `ftype`, `fstate` and `submenu` of a `MenuItem` have no public setter in the source. They are fields of the model's item, set only in the functions' inputs.
- The system message is kept as characters. Its lossy UTF-8 decoding is not modelled.
- The debug assertions in `porcupine_window_procedure` and `handle_window_message` (src/wndproc.rs:46, 126-127, 164) are modelled as panics, as in a debug build. A release build would skip them and read through a null pointer.
- Lib.LastErrorOf: the model is the build with the `alloc` feature. Without it, `Error` has no `message` field, `last_error` never calls `FormatMessageA` (src/lib.rs:66, 80-123), and `Display` always prints "<function> failed (error code: N)" (src/lib.rs:138-141). That build behaves as the model does when `FormatMessageA` writes nothing (an empty `sys.text`).
- Unwinding itself is not modelled. A panic is an outcome value that each caller passes on or catches.

## Findings

| source | as written | input that shows it | evidently intended | confidence | as-written member | corrected member |
|---|---|---|---|---|---|---|
| src/window.rs:807-849 | `begin` builds the scope guard before raising the count. When raising overflows, the guard is dropped during the unwind and lowers the count, although no scope was opened | a `begin` while the re-entrancy count is u32::MAX | an overflowing `begin` panics and leaves the count as it was | medium: not executed; reaching the input needs u32::MAX nested scopes | Window.BeginOverflowLowersCount | Window.WindowData.Begin |

=== FILE: client.dfy ===
/**
 * The client (src/client.rs): the shared window counter that posts a quit request when the
 * last window goes away.
 */
module Clients {
  import opened Wrappers
  import opened Lib
  import opened Native

  /** `Option<NonZeroU32>`: no windows, or a count from 1 to `u32::MAX`. */
  predicate ValidCount(c: Option<nat>)
  {
    c.None? || 1 <= c.value <= U32_MAX
  }

  /** What `window_count()` reports: 0 for `None`. */
  function CountOf(c: Option<nat>): (n: nat)
    ensures n == 0 <==> c.None? || c.value == 0
    ensures c.Some? ==> n == c.value
  {
    match c
    case None => 0
    case Some(k) => k
  }

  const OVERFLOW_MSG: string := "Window count overflowed"
  const UNREACHABLE_MSG: string :=
    "internal error: entered unreachable code: Count should never be zero in this case"

  /** `increment_window_count` on the count: `None` to 1, n to n + 1, abort on overflow. */
  function Incremented(c: Option<nat>): (r: Outcome<Option<nat>>)
    requires ValidCount(c)
    ensures r.Returned? || r.Aborted?
    ensures r.Aborted? <==> c == Some(U32_MAX)
    ensures r.Returned? ==> ValidCount(r.value) && r.value == Some(CountOf(c) + 1)
  {
    match c
    case None => Returned(Some(1))
    case Some(n) => if n + 1 > U32_MAX then AbortMacro(OVERFLOW_MSG) else Returned(Some(n + 1))
  }

  /** The count after a decrement and whether a quit message was posted. */
  datatype Decrement = Decrement(count: Option<nat>, postsQuit: bool)

  /**
   * `decrement_window_count` on the count: from n > 1 to n - 1 without a quit; from 1 to
   * `None`, posting a quit; from `None` it panics (unreachable).
   */
  function Decremented(c: Option<nat>): (r: Outcome<Decrement>)
    requires ValidCount(c)
    ensures r.Panicked? <==> c.None?
    ensures r.Returned? <==> c.Some?
    ensures r.Returned? ==> ValidCount(r.value.count)
    ensures r.Returned? ==> (r.value.postsQuit <==> c == Some(1))
    ensures r.Returned? ==> CountOf(r.value.count) + 1 == CountOf(c)
  {
    match c
    case None => Panicked(UNREACHABLE_MSG)
    case Some(n) =>
      var newCount := if n >= 1 then n - 1 else 0;
      if newCount == 0 then Returned(Decrement(None, true))
      else Returned(Decrement(Some(newCount), false))
  }

  /** A decrement undoes an increment, and posts a quit exactly when it empties the count. */
  lemma DecrementUndoesIncrement(c: Option<nat>)
    requires ValidCount(c) && c != Some(U32_MAX)
    ensures Incremented(c).Returned?
    ensures Decremented(Incremented(c).value) == Returned(Decrement(c, c.None?))
  {
  }

  /** The count after `k` decrements and the number of quits they posted. */
  function DecrementTimes(c: Option<nat>, k: nat): (r: (Option<nat>, nat))
    requires ValidCount(c) && k <= CountOf(c)
    decreases k
  {
    if k == 0 then (c, 0)
    else
      var d := Decremented(c).value;
      var rest := DecrementTimes(d.count, k - 1);
      (rest.0, rest.1 + if d.postsQuit then 1 else 0)
  }

  /**
   * With n windows open, closing them one by one empties the count and posts exactly one
   * quit, on the last close; closing fewer posts none.
   */
  lemma {:induction false} ClosingAllWindowsQuitsOnce(n: nat, k: nat)
    requires 1 <= n <= U32_MAX && k <= n
    ensures DecrementTimes(Some(n), k) == (if k == n then (None, 1) else (Some(n - k), 0))
    decreases k
  {
    if k > 0 {
      if n == 1 {
        assert DecrementTimes(None, 0) == (None, 0);
      } else {
        ClosingAllWindowsQuitsOnce(n - 1, k - 1);
      }
    }
  }

  /** The client: one shared count; every clone is a reference to this same object. */
  class Client {
    var windowCount: Option<nat>
    const thread: ThreadQueue

    ghost predicate Valid()
      reads this
    {
      ValidCount(windowCount)
    }

    /** `Client::new`: no windows yet. */
    constructor (thread: ThreadQueue)
      ensures Valid() && windowCount == None && this.thread == thread
    {
      windowCount := None;
      this.thread := thread;
    }

    /** `window_count()`: the number of open windows, 0 when the count is `None`. */
    function WindowCount(): (n: nat)
      reads this
      requires Valid()
      ensures n == 0 <==> windowCount.None?
      ensures windowCount.Some? ==> n == windowCount.value
    {
      match windowCount
      case None => 0
      case Some(k) => k
    }

    /** `Clone`: the clone shares the count, so an update through either is seen by both. */
    method Clone() returns (c: Client)
      ensures c == this && c.thread == thread
    {
      c := this;
    }

    /** `increment_window_count`. */
    method IncrementWindowCount() returns (o: Outcome<()>)
      requires Valid()
      modifies this
      ensures Valid()
      ensures o == WithValue(Incremented(old(windowCount)), ())
      ensures o.Aborted? <==> old(windowCount) == Some(U32_MAX)
      ensures Incremented(old(windowCount)).Returned? ==>
        o.Returned? && windowCount == Incremented(old(windowCount)).value
      ensures o.Aborted? ==> windowCount == old(windowCount)
    {
      var count: nat;
      match windowCount {
        case None =>
          count := 1;
        case Some(n) =>
          if n + 1 > U32_MAX {
            o := AbortMacro(OVERFLOW_MSG);
            return;
          }
          count := n + 1;
      }
      windowCount := Some(count);
      o := Returned(());
    }

    /** `decrement_window_count`: may post a quit to the thread's queue. */
    method DecrementWindowCount() returns (o: Outcome<()>)
      requires Valid()
      modifies this, thread
      ensures Valid()
      ensures Decremented(old(windowCount)).Panicked? ==>
        o == Panicked(UNREACHABLE_MSG) && windowCount == old(windowCount)
        && thread.View() == old(thread.View())
      ensures Decremented(old(windowCount)).Returned? ==>
        var d := Decremented(old(windowCount)).value;
        && o == Returned(())
        && windowCount == d.count
        && thread.posted == old(thread.posted)
        && thread.quitPosted == (old(thread.quitPosted) || d.postsQuit)
    {
      var count: nat;
      match windowCount {
        case None =>
          o := Panicked(UNREACHABLE_MSG);
          return;
        case Some(n) =>
          count := n;
      }
      var newCount := if count >= 1 then count - 1 else 0;
      if newCount == 0 {
        thread.PostQuitMessage();
        windowCount := None;
      } else {
        windowCount := Some(newCount);
      }
      o := Returned(());
    }

    /** `quit`: posts a quit request; the window count is untouched. */
    method Quit()
      modifies thread
      ensures thread.quitPosted && thread.posted == old(thread.posted)
      ensures windowCount == old(windowCount)
    {
      thread.PostQuitMessage();
    }
  }
}

=== FILE: lib.dfy ===
/**
 * Crate-level pieces of porcupine (src/lib.rs): machine integer ranges, panics and aborts
 * as outcome values, the `Error` type with its message trimming and its `Display` text,
 * and the strict-provenance pointer helpers.
 */
module Lib {
  import opened Wrappers

  const U32_MAX: nat := 0xFFFF_FFFF
  const USIZE_MAX: nat := 0xFFFF_FFFF_FFFF_FFFF
  const ISIZE_MIN: int := -0x8000_0000_0000_0000
  const ISIZE_MAX: int := 0x7FFF_FFFF_FFFF_FFFF
  /** 2^64: the number of distinct pointer-sized bit patterns. */
  const WORD: nat := 0x1_0000_0000_0000_0000

  type U32 = x: nat | x <= U32_MAX
  type Usize = x: nat | x <= USIZE_MAX
  type Isize = x: int | ISIZE_MIN <= x <= ISIZE_MAX

  // ---------------------------------------------------------------------------------------
  // Panics and aborts
  // ---------------------------------------------------------------------------------------

  /** The payload a panic carries (Rust's `Box<dyn Any + Send>`), kept as its message. */
  type Payload = string

  /**
   * How a call ends: it returns a value, it unwinds with a panic, it aborts the process
   * (terminal), or it reaches a point where the source has undefined behaviour (terminal).
   */
  datatype Outcome<+R> =
    | Returned(value: R)
    | Panicked(payload: Payload)
    | Aborted(reason: string)
    | Undefined(reason: string)
  {
    /** The call did not end the process. */
    predicate Continues() { Returned? || Panicked? }
  }

  /** The same ending, with `v` as the value when the call returned normally. */
  function WithValue<R, S>(o: Outcome<R>, v: S): (r: Outcome<S>)
    ensures r.Returned? <==> o.Returned?
    ensures o.Returned? ==> r == Returned(v)
    ensures o.Panicked? ==> r == Panicked(o.payload)
    ensures o.Aborted? ==> r == Aborted(o.reason)
    ensures o.Undefined? ==> r == Undefined(o.reason)
  {
    match o
    case Returned(_) => Returned(v)
    case Panicked(p) => Panicked(p)
    case Aborted(m) => Aborted(m)
    case Undefined(m) => Undefined(m)
  }

  /** `abort()`: ends the process; it never returns. */
  function Abort<R>(): (r: Outcome<R>)
    ensures r.Aborted? && !r.Continues()
  {
    Aborted("process aborted")
  }

  /**
   * `abort_with_message`: logs the message and aborts. If logging panics, the drop bomb
   * aborts anyway, so either way the process ends.
   */
  function AbortWithMessage<R>(msg: string): (r: Outcome<R>)
    ensures r.Aborted? && r.reason == msg
  {
    Aborted(msg)
  }

  const PANIC_ABORT_MSG: string := "Function panicked in a context where panics are not allowed"

  /**
   * `abort_on_panic(f)`, given how `f` ended: a normal return passes through unchanged,
   * a panic runs the guard's drop, which aborts. Terminal outcomes stay terminal.
   */
  function AbortOnPanic<R>(f: Outcome<R>): (r: Outcome<R>)
    ensures !r.Panicked?
    ensures r.Returned? <==> f.Returned?
    ensures f.Returned? ==> r == f
    ensures f.Panicked? ==> r == Aborted(PANIC_ABORT_MSG)
    ensures !f.Panicked? ==> r == f
  {
    match f
    case Panicked(_) => AbortMacro(PANIC_ABORT_MSG)
    case _ => f
  }

  /** The `abort!` macro: `abort_with_message` run under `abort_on_panic`. */
  function AbortMacro<R>(msg: string): (r: Outcome<R>)
    ensures r == Aborted(msg)
  {
    match AbortWithMessage<R>(msg)
    case Panicked(_) => Abort()
    case other => other
  }

  // ---------------------------------------------------------------------------------------
  // Error
  // ---------------------------------------------------------------------------------------

  /** Size of the buffer `Error::last_error` hands to `FormatMessageA`. */
  const BUF_SIZE: nat := 1024

  /** What `FormatMessageA` writes: at most `BUF_SIZE` characters. */
  type FormatOutput = s: string | |s| <= BUF_SIZE

  /** The calling thread's last-error state: `GetLastError()` and its formatted text. */
  datatype SystemError = SystemError(code: U32, text: FormatOutput)

  /** A failed native call: its error code, the system's message if any, and the function. */
  datatype Error = Error(code: U32, message: Option<string>, fnName: string)

  /** Number of characters kept of a message `FormatMessageA` reported as `n` long. */
  function TrimmedLength(n: nat): (k: nat)
    ensures k <= n
    ensures n >= 2 ==> k + 2 == n
    ensures n < 2 ==> k == 0
  {
    if n >= 2 then n - 2 else 0
  }

  /**
   * The error `Error::last_error(function)` builds from the thread's error state: no
   * message when nothing was written, otherwise the written text without its last two
   * characters (the trailing CR LF).
   */
  function LastErrorOf(fnName: string, sys: SystemError): (e: Error)
    ensures e.code == sys.code && e.fnName == fnName
    ensures e.message.None? <==> |sys.text| == 0
    ensures e.message.Some? ==> e.message.value <= sys.text
    ensures e.message.Some? ==> |e.message.value| == TrimmedLength(|sys.text|)
  {
    if |sys.text| == 0 then Error(sys.code, None, fnName)
    else Error(sys.code, Some(sys.text[..TrimmedLength(|sys.text|)]), fnName)
  }

  /** `Error::last_error`: trims by lowering the written count, as the source does. */
  method LastError(fnName: string, sys: SystemError) returns (e: Error)
    ensures e == LastErrorOf(fnName, sys)
  {
    var charsWritten := |sys.text|;
    if charsWritten == 0 {
      e := Error(sys.code, None, fnName);
    } else {
      charsWritten := if charsWritten >= 2 then charsWritten - 2 else 0;
      e := Error(sys.code, Some(sys.text[..charsWritten]), fnName);
    }
  }

  /** When the system text ends in CR LF, the stored message is that text without it. */
  lemma TrimDropsCrLf(fnName: string, sys: SystemError, body: string)
    requires sys.text == body + "\r\n"
    ensures LastErrorOf(fnName, sys).message == Some(body)
  {
    assert sys.text[..TrimmedLength(|sys.text|)] == body;
  }

  // Decimal text of the error code

  predicate IsDigit(c: char) { '0' <= c <= '9' }

  predicate AllDigits(s: string) { forall i :: 0 <= i < |s| ==> IsDigit(s[i]) }

  function DigitChar(d: nat): (c: char)
    requires d < 10
    ensures IsDigit(c) && c as int - '0' as int == d
  {
    ('0' as int + d) as char
  }

  /** The `{}` formatting of an unsigned integer: its decimal digits, no leading zeros. */
  function Decimal(n: nat): (s: string)
    ensures |s| >= 1 && AllDigits(s)
    ensures |s| > 1 ==> s[0] != '0'
    decreases n
  {
    if n < 10 then [DigitChar(n)] else Decimal(n / 10) + [DigitChar(n % 10)]
  }

  /** The value of a string of decimal digits. */
  function ParseDecimal(s: string): nat
    requires AllDigits(s)
  {
    if s == [] then 0
    else ParseDecimal(s[..|s| - 1]) * 10 + (s[|s| - 1] as int - '0' as int)
  }

  lemma {:induction false} ParseDecimalOfDecimal(n: nat)
    ensures ParseDecimal(Decimal(n)) == n
    decreases n
  {
    if n >= 10 {
      var s := Decimal(n);
      assert s[..|s| - 1] == Decimal(n / 10);
      ParseDecimalOfDecimal(n / 10);
    }
  }

  /** The `Display` text of an error: what `impl Display for Error` writes. */
  function Display(e: Error): string
  {
    e.fnName + " failed"
    + (match e.message case Some(m) => ": " + m case None => "")
    + " (error code: " + Decimal(e.code) + ")"
  }

  /** `impl Display for Error`: three writes into the formatter, in order. */
  method Fmt(e: Error) returns (out: string)
    ensures out == Display(e)
  {
    out := e.fnName + " failed";
    if e.message.Some? {
      out := out + ": " + e.message.value;
    }
    out := out + " (error code: " + Decimal(e.code) + ")";
  }

  /** The longest all-digit suffix of a string. */
  function TrailingDigits(s: string): (d: string)
    ensures AllDigits(d) && |d| <= |s| && d == s[|s| - |d|..]
  {
    if s == [] || !IsDigit(s[|s| - 1]) then []
    else TrailingDigits(s[..|s| - 1]) + [s[|s| - 1]]
  }

  /** Reads the error code back from a displayed error: the digits before the final ')'. */
  function CodeOf(text: string): Option<nat>
  {
    if text == [] || text[|text| - 1] != ')' then None
    else
      var d := TrailingDigits(text[..|text| - 1]);
      if d == [] then None else Some(ParseDecimal(d))
  }

  lemma {:induction false} TrailingDigitsOfSuffix(p: string, d: string)
    requires AllDigits(d)
    requires p != [] && !IsDigit(p[|p| - 1])
    ensures TrailingDigits(p + d) == d
    decreases |d|
  {
    if d == [] {
      assert p + d == p;
    } else {
      var s := p + d;
      assert s[..|s| - 1] == p + d[..|d| - 1];
      TrailingDigitsOfSuffix(p, d[..|d| - 1]);
      assert d == d[..|d| - 1] + [d[|d| - 1]];
    }
  }

  /** A text made of a non-digit-terminated prefix, decimal digits and ')' yields those digits' value. */
  lemma CodeOfDigits(prefix: string, digits: string)
    requires AllDigits(digits) && digits != []
    requires prefix != [] && !IsDigit(prefix[|prefix| - 1])
    ensures CodeOf(prefix + digits + ")") == Some(ParseDecimal(digits))
  {
    var text := prefix + digits + ")";
    assert text[..|text| - 1] == prefix + digits;
    TrailingDigitsOfSuffix(prefix, digits);
  }

  /** The displayed text starts with "<function> failed" and carries the code back out. */
  lemma DisplayRoundTrip(e: Error)
    ensures Display(e)[..|e.fnName| + 7] == e.fnName + " failed"
    ensures CodeOf(Display(e)) == Some(e.code)
  {
    var prefix := e.fnName + " failed"
      + (match e.message case Some(m) => ": " + m case None => "")
      + " (error code: ";
    var digits := Decimal(e.code);
    assert Display(e) == prefix + digits + ")";
    assert prefix[|prefix| - 1] == ' ';
    CodeOfDigits(prefix, digits);
    ParseDecimalOfDecimal(e.code);
  }

  /** The message appears, after ": ", exactly when the error has one. */
  lemma DisplayShowsMessage(e: Error)
    ensures e.message.Some? ==>
      Display(e)[|e.fnName| + 7..|e.fnName| + 9 + |e.message.value|] == ": " + e.message.value
    ensures e.message.None? ==>
      Display(e)[|e.fnName| + 7..] == " (error code: " + Decimal(e.code) + ")"
  {
  }

  // ---------------------------------------------------------------------------------------
  // strict: strict-provenance polyfill
  // ---------------------------------------------------------------------------------------

  /** A raw pointer `*const ()`: an address, one of the 2^64 bit patterns of a word. */
  datatype Ptr = Ptr(address: Usize)

  /** `strict::invalid`: transmutes an `isize` into a pointer, keeping its bit pattern. */
  function Invalid(val: Isize): (p: Ptr)
    ensures p.address == val % WORD
  {
    Ptr(if val < 0 then val + WORD else val)
  }

  /** `strict::addr`: transmutes a pointer into an `isize`, keeping its bit pattern. */
  function Addr(p: Ptr): (v: Isize)
    ensures v % WORD == p.address
  {
    if p.address > ISIZE_MAX then p.address - WORD else p.address
  }

  /** `strict::expose`: the same as `addr`. */
  function Expose(p: Ptr): (v: Isize)
    ensures v % WORD == p.address
  {
    Addr(p)
  }

  /** `strict::reconstitute`: the same as `invalid`. */
  function Reconstitute(val: Isize): (p: Ptr)
    ensures p.address == val % WORD
  {
    Invalid(val)
  }

  lemma AddrOfInvalid(val: Isize)
    ensures Addr(Invalid(val)) == val
  {
  }

  lemma InvalidOfAddr(p: Ptr)
    ensures Invalid(Addr(p)) == p
  {
  }

  lemma ReconstituteOfExpose(p: Ptr)
    ensures Reconstitute(Expose(p)) == p
    ensures Expose(Reconstitute(Addr(p))) == Addr(p)
  {
  }
}

=== FILE: menu.dfy ===
/**
 * Menus (src/menu.rs): a menu item description is turned into the `MENUITEMINFOA` record
 * that `InsertMenuItemA` takes, consuming the item's owned parts; a `Menu` counts the items
 * inserted into it.
 */
module Menus {
  import opened Wrappers
  import opened Lib
  import opened Native

  // ---------------------------------------------------------------------------------------
  // Win32 constants
  // ---------------------------------------------------------------------------------------

  const MIIM_STATE: U32 := 0x0001
  const MIIM_SUBMENU: U32 := 0x0004
  const MIIM_CHECKMARKS: U32 := 0x0008
  const MIIM_STRING: U32 := 0x0040
  const MIIM_BITMAP: U32 := 0x0080
  const MIIM_FTYPE: U32 := 0x0100

  const MFT_MENUBARBREAK: U32 := 0x0020
  const MFT_MENUBREAK: U32 := 0x0040
  const MFT_RADIOCHECK: U32 := 0x0200
  const MFT_SEPARATOR: U32 := 0x0800
  const MFT_RIGHTORDER: U32 := 0x2000
  const MFT_RIGHTJUSTIFY: U32 := 0x4000

  const MFS_DISABLED: U32 := 0x0003
  const MFS_CHECKED: U32 := 0x0008
  const MFS_HILITE: U32 := 0x0080
  const MFS_DEFAULT: U32 := 0x1000

  const HBMMENU_MBAR_RESTORE: Handle := 2
  const HBMMENU_MBAR_MINIMIZE: Handle := 3
  const HBMMENU_MBAR_CLOSE: Handle := 5
  const HBMMENU_MBAR_CLOSE_D: Handle := 6
  const HBMMENU_MBAR_MINIMIZE_D: Handle := 7
  const HBMMENU_POPUP_CLOSE: Handle := 8
  const HBMMENU_POPUP_RESTORE: Handle := 9
  const HBMMENU_POPUP_MAXIMIZE: Handle := 10
  const HBMMENU_POPUP_MINIMIZE: Handle := 11

  /** `size_of::<MENUITEMINFOA>()` on a 64-bit target. */
  const MENUITEMINFOA_SIZE: U32 := 80

  const EMPTY_ITEM_MSG: string := "cannot poll an empty menu item"
  const COUNT_OVERFLOW_MSG: string := "menu item count overflowed"

  // ---------------------------------------------------------------------------------------
  // Flag words
  //
  // Each `u32` flag word of the record is kept as the flags it can hold, one boolean per
  // flag: OR-ing a flag in sets its field, and `…Value` gives the number the word stands for.
  // ---------------------------------------------------------------------------------------

  /** `flag` when `on` holds, 0 otherwise. */
  function Bit(on: bool, flag: U32): nat
  {
    if on then flag else 0
  }

  /** `fMask`: which members of the record are valid (the `MIIM_*` flags). */
  datatype Mask = Mask(state: bool, submenu: bool, checkmarks: bool, str: bool, bitmap: bool, ftype: bool)

  const NO_MASK: Mask := Mask(false, false, false, false, false, false)

  function MaskValue(m: Mask): U32
  {
    Bit(m.state, MIIM_STATE) + Bit(m.submenu, MIIM_SUBMENU) + Bit(m.checkmarks, MIIM_CHECKMARKS)
    + Bit(m.str, MIIM_STRING) + Bit(m.bitmap, MIIM_BITMAP) + Bit(m.ftype, MIIM_FTYPE)
  }

  /** `fType`: the kind and look of the item (the `MFT_*` flags). */
  datatype TypeFlags = TypeFlags(
    menuBarBreak: bool, menuBreak: bool, radioCheck: bool, separator: bool, rightOrder: bool, rightJustify: bool)

  const NO_TYPE: TypeFlags := TypeFlags(false, false, false, false, false, false)

  function TypeValue(f: TypeFlags): U32
  {
    Bit(f.menuBarBreak, MFT_MENUBARBREAK) + Bit(f.menuBreak, MFT_MENUBREAK) + Bit(f.radioCheck, MFT_RADIOCHECK)
    + Bit(f.separator, MFT_SEPARATOR) + Bit(f.rightOrder, MFT_RIGHTORDER) + Bit(f.rightJustify, MFT_RIGHTJUSTIFY)
  }

  /** `Ftype`: the public `fType` flags, RIGHT_JUSTIFY and RIGHT_ORDER. */
  datatype Ftype = Ftype(rightJustify: bool, rightOrder: bool)

  /** `fType |= ftype.bits()`. */
  function OrFtype(t: TypeFlags, f: Ftype): TypeFlags
  {
    t.(rightJustify := t.rightJustify || f.rightJustify, rightOrder := t.rightOrder || f.rightOrder)
  }

  /**
   * `Fstate`: the public `fState` flags, CHECKED, DEFAULT, DISABLED and HIGHLIGHTED. They are
   * all the state flags the record is given, so `fState` is kept as an `Fstate` too.
   */
  datatype Fstate = Fstate(checked: bool, default: bool, disabled: bool, highlighted: bool)

  const NO_STATE: Fstate := Fstate(false, false, false, false)

  function StateValue(f: Fstate): U32
  {
    Bit(f.checked, MFS_CHECKED) + Bit(f.default, MFS_DEFAULT) + Bit(f.disabled, MFS_DISABLED)
    + Bit(f.highlighted, MFS_HILITE)
  }

  /** `fState |= fstate.bits()`. */
  function OrFstate(a: Fstate, b: Fstate): Fstate
  {
    Fstate(a.checked || b.checked, a.default || b.default, a.disabled || b.disabled, a.highlighted || b.highlighted)
  }

  /** The flags of each word are distinct bits: a word's value tells which flags it holds. */
  lemma FlagValuesDistinct(m1: Mask, m2: Mask, t1: TypeFlags, t2: TypeFlags, s1: Fstate, s2: Fstate)
    ensures MaskValue(m1) == MaskValue(m2) <==> m1 == m2
    ensures TypeValue(t1) == TypeValue(t2) <==> t1 == t2
    ensures StateValue(s1) == StateValue(s2) <==> s1 == s2
  {
  }

  // ---------------------------------------------------------------------------------------
  // Menu item descriptions
  // ---------------------------------------------------------------------------------------

  /** A `CStr`: bytes with no NUL among them (the terminating NUL is not part of it). */
  type CStr = s: seq<bv8> | forall i | 0 <= i < |s| :: s[i] != 0

  /** An owned bitmap, known by its handle. */
  type Bitmap = Handle

  /** `MenuItemType`. */
  datatype ItemType = Empty | String(text: CStr) | Separator | MenuBreak | MenuBarBreak

  /** `BitmapOptions`: an owned bitmap or one of the system's predefined menu bitmaps. */
  datatype BitmapOptions =
    | OwnedBitmap(bitmap: Bitmap)
    | Close(closeDisabled: bool)
    | Minimize(minimizeDisabled: bool)
    | Restore
    | ClosePopup
    | MaximizePopup
    | MinimizePopup
    | RestorePopup

  /** `CheckmarksInfo`. */
  datatype Checkmarks = Checkmarks(checked: Option<Bitmap>, unchecked: Option<Bitmap>, radio: bool)

  /**
   * The fields of a `MenuItem`. `submenu` is the handle of the owned drop-down `Menu`,
   * whose ownership goes with it.
   */
  datatype ItemState = ItemState(
    bitmap: Option<BitmapOptions>,
    itemType: ItemType,
    checkmark: Option<Checkmarks>,
    ftype: Option<Ftype>,
    fstate: Option<Fstate>,
    submenu: Option<Handle>)

  /** `MenuItem::new`: only the type is set. */
  function NewItem(t: ItemType): ItemState
  {
    ItemState(None, t, None, None, None, None)
  }

  /**
   * The fields of `MENUITEMINFOA` the core fills in, all others staying zero.
   * `dwTypeData` is the string it points at, or `None` for the null pointer.
   */
  datatype MenuItemInfo = MenuItemInfo(
    cbSize: U32,
    fMask: Mask,
    fType: TypeFlags,
    fState: Fstate,
    hSubMenu: Handle,
    hbmpChecked: Handle,
    hbmpUnchecked: Handle,
    dwTypeData: Option<CStr>,
    cch: U32,
    hbmpItem: Handle)

  /** `mem::zeroed()` with `cbSize` set. */
  const ZEROED_INFO: MenuItemInfo := MenuItemInfo(MENUITEMINFOA_SIZE, NO_MASK, NO_TYPE, NO_STATE, 0, 0, 0, None, 0, 0)

  /** The `hbmpItem` each bitmap option selects. */
  function BitmapHandle(b: BitmapOptions): (h: Handle)
    ensures b.OwnedBitmap? ==> h == b.bitmap
    ensures !b.OwnedBitmap? ==> 2 <= h <= 11 && h != 4
  {
    match b
    case OwnedBitmap(bitmap) => bitmap
    case Close(disabled) => if disabled then HBMMENU_MBAR_CLOSE_D else HBMMENU_MBAR_CLOSE
    case Minimize(disabled) => if disabled then HBMMENU_MBAR_MINIMIZE_D else HBMMENU_MBAR_MINIMIZE
    case Restore => HBMMENU_MBAR_RESTORE
    case ClosePopup => HBMMENU_POPUP_CLOSE
    case MaximizePopup => HBMMENU_POPUP_MAXIMIZE
    case MinimizePopup => HBMMENU_POPUP_MINIMIZE
    case RestorePopup => HBMMENU_POPUP_RESTORE
  }

  /** Two different predefined bitmaps never select the same system bitmap. */
  lemma PredefinedBitmapsDistinct(a: BitmapOptions, b: BitmapOptions)
    requires !a.OwnedBitmap? && !b.OwnedBitmap?
    ensures BitmapHandle(a) == BitmapHandle(b) <==> a == b
  {
  }

  /** The cast `len() as u32`: the byte length modulo 2^32. */
  function ByteCount(s: CStr): (n: U32)
    ensures |s| <= U32_MAX ==> n == |s|
  {
    |s| % (U32_MAX + 1)
  }

  function Radio(st: ItemState): bool
  {
    st.checkmark.Some? && st.checkmark.value.radio
  }

  /**
   * `fMask` for a whole item: STRING for a string; FTYPE for the other kinds, for `ftype`
   * flags and for a radio check; BITMAP, STATE, CHECKMARKS and SUBMENU for those parts.
   */
  function MaskOf(st: ItemState): Mask
  {
    Mask(
      state := st.fstate.Some?,
      submenu := st.submenu.Some?,
      checkmarks := st.checkmark.Some?,
      str := st.itemType.String?,
      bitmap := st.bitmap.Some?,
      ftype := !st.itemType.String? || st.ftype.Some? || Radio(st))
  }

  /** `fType` for a whole item: its kind, RADIOCHECK for a radio check, and the `ftype` flags. */
  function TypeOf(st: ItemState): TypeFlags
  {
    TypeFlags(
      menuBarBreak := st.itemType == MenuBarBreak,
      menuBreak := st.itemType == MenuBreak,
      radioCheck := Radio(st),
      separator := st.itemType == Separator,
      rightOrder := st.ftype.Some? && st.ftype.value.rightOrder,
      rightJustify := st.ftype.Some? && st.ftype.value.rightJustify)
  }

  /** `fState` for a whole item: the `fstate` flags, if any. */
  function StateOf(st: ItemState): Fstate
  {
    if st.fstate.Some? then st.fstate.value else NO_STATE
  }

  /**
   * The record `take_info` builds from an item whose type is not `Empty`: the size, the
   * three flag words, and each handle or pointer exactly when its part is present.
   */
  function InfoOf(st: ItemState): MenuItemInfo
  {
    MenuItemInfo(
      cbSize := MENUITEMINFOA_SIZE,
      fMask := MaskOf(st),
      fType := TypeOf(st),
      fState := StateOf(st),
      hSubMenu := if st.submenu.Some? then st.submenu.value else 0,
      hbmpChecked := if st.checkmark.Some? && st.checkmark.value.checked.Some? then st.checkmark.value.checked.value else 0,
      hbmpUnchecked :=
        if st.checkmark.Some? && st.checkmark.value.unchecked.Some? then st.checkmark.value.unchecked.value else 0,
      dwTypeData := if st.itemType.String? then Some(st.itemType.text) else None,
      cch := if st.itemType.String? then ByteCount(st.itemType.text) else 0,
      hbmpItem := if st.bitmap.Some? then BitmapHandle(st.bitmap.value) else 0)
  }

  /** The record once the type part is filled in: its flags, and the string with its length. */
  function KindInfo(t: ItemType): MenuItemInfo
  {
    ZEROED_INFO.(
      fMask := NO_MASK.(str := t.String?, ftype := !t.String? && !t.Empty?),
      fType := NO_TYPE.(separator := t == Separator, menuBreak := t == MenuBreak, menuBarBreak := t == MenuBarBreak),
      dwTypeData := if t.String? then Some(t.text) else None,
      cch := if t.String? then ByteCount(t.text) else 0)
  }

  /** The bitmap part: its handle and the BITMAP flag. */
  function WithBitmap(info: MenuItemInfo, b: Option<BitmapOptions>): MenuItemInfo
  {
    info.(fMask := info.fMask.(bitmap := info.fMask.bitmap || b.Some?),
      hbmpItem := if b.Some? then BitmapHandle(b.value) else info.hbmpItem)
  }

  /** The `ftype` part: its flags OR-ed into the type word, and the FTYPE flag. */
  function WithFtype(info: MenuItemInfo, f: Option<Ftype>): MenuItemInfo
  {
    info.(fMask := info.fMask.(ftype := info.fMask.ftype || f.Some?),
      fType := if f.Some? then OrFtype(info.fType, f.value) else info.fType)
  }

  /** The `fstate` part: its flags OR-ed into the state word, and the STATE flag. */
  function WithFstate(info: MenuItemInfo, f: Option<Fstate>): MenuItemInfo
  {
    info.(fMask := info.fMask.(state := info.fMask.state || f.Some?),
      fState := if f.Some? then OrFstate(info.fState, f.value) else info.fState)
  }

  /** The checkmark part: its bitmaps, the CHECKMARKS flag, and FTYPE with RADIOCHECK for a radio check. */
  function WithCheckmarks(info: MenuItemInfo, c: Option<Checkmarks>): MenuItemInfo
  {
    var radio := c.Some? && c.value.radio;
    info.(
      fMask := info.fMask.(checkmarks := info.fMask.checkmarks || c.Some?, ftype := info.fMask.ftype || radio),
      fType := info.fType.(radioCheck := info.fType.radioCheck || radio),
      hbmpChecked := if c.Some? && c.value.checked.Some? then c.value.checked.value else info.hbmpChecked,
      hbmpUnchecked := if c.Some? && c.value.unchecked.Some? then c.value.unchecked.value else info.hbmpUnchecked)
  }

  /** The submenu part: its handle and the SUBMENU flag. */
  function WithSubmenu(info: MenuItemInfo, m: Option<Handle>): MenuItemInfo
  {
    info.(fMask := info.fMask.(submenu := info.fMask.submenu || m.Some?),
      hSubMenu := if m.Some? then m.value else info.hSubMenu)
  }

  /** Filling the record part by part, in `take_info`'s order, gives `InfoOf`. */
  lemma InfoOfSteps(st: ItemState)
    requires !st.itemType.Empty?
    ensures WithSubmenu(WithCheckmarks(WithFstate(WithFtype(WithBitmap(KindInfo(st.itemType), st.bitmap),
      st.ftype), st.fstate), st.checkmark), st.submenu) == InfoOf(st)
  {
  }

  /**
   * `take_info` on the item's fields: panics on an `Empty` item (leaving it as it is);
   * otherwise gives `InfoOf` and leaves the type `Empty` with the bitmap, checkmarks and
   * submenu taken, the `ftype` and `fstate` flags kept.
   */
  function Taken(st: ItemState): (r: (Outcome<MenuItemInfo>, ItemState))
    ensures r.0.Panicked? <==> st.itemType.Empty?
    ensures r.0.Returned? || r.0.Panicked?
    ensures r.1.itemType == Empty
    ensures r.1.ftype == st.ftype && r.1.fstate == st.fstate
    ensures r.0.Panicked? ==> r == (Panicked(EMPTY_ITEM_MSG), st)
    ensures r.0.Returned? ==>
      r.0.value == InfoOf(st) && r.1.bitmap.None? && r.1.checkmark.None? && r.1.submenu.None?
  {
    if st.itemType.Empty? then (Panicked(EMPTY_ITEM_MSG), st)
    else (Returned(InfoOf(st)), st.(itemType := Empty, bitmap := None, checkmark := None, submenu := None))
  }

  /** An item can be turned into a record once: taking it again panics. */
  lemma TakeTwicePanics(st: ItemState)
    ensures Taken(Taken(st).1).0 == Panicked(EMPTY_ITEM_MSG)
  {
  }

  /**
   * The numbers written into the record: the mask has exactly the flags of the parts present,
   * the type word the kind's flag, RADIOCHECK and the `ftype` flags, the state word the
   * `fstate` flags.
   */
  lemma InfoValues(st: ItemState)
    requires !st.itemType.Empty?
    ensures var info := Taken(st).0.value;
      MaskValue(info.fMask) == (if st.itemType.String? then MIIM_STRING else 0)
        + Bit(!st.itemType.String? || st.ftype.Some? || Radio(st), MIIM_FTYPE)
        + Bit(st.bitmap.Some?, MIIM_BITMAP) + Bit(st.fstate.Some?, MIIM_STATE)
        + Bit(st.checkmark.Some?, MIIM_CHECKMARKS) + Bit(st.submenu.Some?, MIIM_SUBMENU)
    ensures var info := Taken(st).0.value;
      TypeValue(info.fType) == (match st.itemType
                                case Separator => MFT_SEPARATOR
                                case MenuBreak => MFT_MENUBREAK
                                case MenuBarBreak => MFT_MENUBARBREAK
                                case _ => 0)
        + Bit(Radio(st), MFT_RADIOCHECK)
        + (if st.ftype.Some? then Bit(st.ftype.value.rightJustify, MFT_RIGHTJUSTIFY)
           + Bit(st.ftype.value.rightOrder, MFT_RIGHTORDER) else 0)
    ensures var info := Taken(st).0.value;
      StateValue(info.fState) == if st.fstate.Some? then StateValue(st.fstate.value) else 0
  {
  }

  /** A string item's record points at its bytes and counts them, without the NUL. */
  lemma StringItemInfo(text: CStr)
    requires |text| <= U32_MAX
    ensures Taken(NewItem(String(text))).0
      == Returned(ZEROED_INFO.(fMask := NO_MASK.(str := true), dwTypeData := Some(text), cch := |text|))
    ensures MaskValue(Taken(NewItem(String(text))).0.value.fMask) == MIIM_STRING
  {
  }

  // ---------------------------------------------------------------------------------------
  // MenuItem
  // ---------------------------------------------------------------------------------------

  /** `MenuItem`: an item description, emptied as it is inserted. */
  class MenuItem {
    var bitmap: Option<BitmapOptions>
    var itemType: ItemType
    var checkmark: Option<Checkmarks>
    var ftype: Option<Ftype>
    var fstate: Option<Fstate>
    var submenu: Option<Handle>

    function Snapshot(): ItemState
      reads this
    {
      ItemState(bitmap, itemType, checkmark, ftype, fstate, submenu)
    }

    /** `MenuItem::string`. */
    constructor FromString(text: CStr)
      ensures Snapshot() == NewItem(String(text))
    {
      bitmap, itemType, checkmark, ftype, fstate, submenu := None, String(text), None, None, None, None;
    }

    /** `MenuItem::separator`. */
    constructor NewSeparator()
      ensures Snapshot() == NewItem(Separator)
    {
      bitmap, itemType, checkmark, ftype, fstate, submenu := None, Separator, None, None, None, None;
    }

    /** `MenuItem::menu_break`. */
    constructor NewMenuBreak()
      ensures Snapshot() == NewItem(MenuBreak)
    {
      bitmap, itemType, checkmark, ftype, fstate, submenu := None, MenuBreak, None, None, None, None;
    }

    /** `MenuItem::menu_bar_break`. */
    constructor NewMenuBarBreak()
      ensures Snapshot() == NewItem(MenuBarBreak)
    {
      bitmap, itemType, checkmark, ftype, fstate, submenu := None, MenuBarBreak, None, None, None, None;
    }

    /** `MenuItem::bitmap`. */
    method SetBitmap(b: BitmapOptions)
      modifies this
      ensures Snapshot() == old(Snapshot()).(bitmap := Some(b))
    {
      bitmap := Some(b);
    }

    /** `MenuItem::checkbox`. */
    method Checkbox(checked: Option<Bitmap>, unchecked: Option<Bitmap>, radio: bool)
      modifies this
      ensures Snapshot() == old(Snapshot()).(checkmark := Some(Checkmarks(checked, unchecked, radio)))
    {
      checkmark := Some(Checkmarks(checked, unchecked, radio));
    }

    /** `take_info`: fills a zeroed record part by part, taking the owned parts. */
    method TakeInfo() returns (o: Outcome<MenuItemInfo>)
      modifies this
      ensures (o, Snapshot()) == Taken(old(Snapshot()))
    {
      var t := itemType;
      itemType := Empty;
      if t.Empty? {
        o := Panicked(EMPTY_ITEM_MSG);
        return;
      }
      var info := KindInfo(t);
      info := WithBitmap(info, bitmap);
      bitmap := None;
      info := WithFtype(info, ftype);
      info := WithFstate(info, fstate);
      info := WithCheckmarks(info, checkmark);
      checkmark := None;
      info := WithSubmenu(info, submenu);
      submenu := None;
      InfoOfSteps(old(Snapshot()));
      o := Returned(info);
    }
  }

  // ---------------------------------------------------------------------------------------
  // Menu
  // ---------------------------------------------------------------------------------------

  /**
   * `insert` on the length: a panic from `take_info` passes through; a failed native
   * insert is an error; otherwise the length goes up by one, with a panic when it would
   * leave `usize` (length unchanged) or once it reaches `u32::MAX` (length already raised).
   */
  function Inserted(len: Usize, taken: Outcome<MenuItemInfo>, inserted: bool, sys: SystemError)
    : (r: (Outcome<Result<(), Error>>, Usize))
    requires taken.Returned? || taken.Panicked?
    ensures r.0 == Returned(Ok(())) <==> taken.Returned? && inserted && len + 1 < U32_MAX
    ensures r.0 == Returned(Ok(())) ==> r.1 == len + 1
    ensures r.1 != len ==> r.1 == len + 1 && taken.Returned? && inserted
    ensures taken.Panicked? ==> r.0 == Panicked(taken.payload)
    ensures taken.Returned? && !inserted ==> r.0 == Returned(Err(LastErrorOf("InsertMenuItemA", sys)))
  {
    if taken.Panicked? then (Panicked(taken.payload), len)
    else if !inserted then (Returned(Err(LastErrorOf("InsertMenuItemA", sys))), len)
    else if len + 1 > USIZE_MAX then (Panicked(COUNT_OVERFLOW_MSG), len)
    else if len + 1 >= U32_MAX then (Panicked(COUNT_OVERFLOW_MSG), len + 1)
    else (Returned(Ok(())), len + 1)
  }

  /** The length counts exactly the successful inserts, as long as it stays below `u32::MAX`. */
  function InsertTimes(len: Usize, results: seq<bool>): (r: Usize)
    requires len + |results| < U32_MAX
    decreases |results|
  {
    if results == [] then len
    else
      var info := Returned(ZEROED_INFO);
      InsertTimes(Inserted(len, info, results[0], SystemError(0, [])).1, results[1..])
  }

  function CountTrue(bs: seq<bool>): nat
  {
    if bs == [] then 0 else (if bs[0] then 1 else 0) + CountTrue(bs[1..])
  }

  /** After a run of inserts, the length has grown by the number that succeeded. */
  lemma {:induction false} InsertTimesCounts(len: Usize, results: seq<bool>)
    requires len + |results| < U32_MAX
    ensures InsertTimes(len, results) == len + CountTrue(results)
    decreases |results|
  {
    if results != [] {
      var next := Inserted(len, Returned(ZEROED_INFO), results[0], SystemError(0, [])).1;
      InsertTimesCounts(next, results[1..]);
    }
  }

  /** `Menu`: an owned native menu and the number of items inserted into it. */
  class Menu {
    const handle: Handle
    var len: Usize
    /** The `InsertMenuItemA` calls made on the native menu: position and record. */
    var calls: seq<(U32, MenuItemInfo)>

    constructor (handle: Handle)
      ensures this.handle == handle && len == 0 && calls == []
    {
      this.handle := handle;
      len := 0;
      calls := [];
    }

    /** `len`. */
    function Len(): (n: Usize)
      reads this
      ensures n == len
    {
      len
    }

    /** `is_empty`. */
    function IsEmpty(): (b: bool)
      reads this
      ensures b <==> Len() == 0
    {
      len == 0
    }

    /**
     * `insert`: takes the item's record (even when the native call then fails), asks for
     * the insert at `index`, and counts the item only when that succeeded.
     */
    method Insert(index: U32, item: MenuItem, inserted: bool, sys: SystemError) returns (o: Outcome<Result<(), Error>>)
      modifies this, item
      ensures item.Snapshot() == Taken(old(item.Snapshot())).1
      ensures (o, len) == Inserted(old(len), Taken(old(item.Snapshot())).0, inserted, sys)
      ensures var taken := Taken(old(item.Snapshot())).0;
        calls == old(calls) + (if taken.Returned? then [(index, taken.value)] else [])
    {
      var info := item.TakeInfo();
      if info.Panicked? {
        o := Panicked(info.payload);
        return;
      }
      calls := calls + [(index, info.value)];
      if !inserted {
        var e := LastError("InsertMenuItemA", sys);
        o := Returned(Err(e));
        return;
      }
      if len + 1 > USIZE_MAX {
        o := Panicked(COUNT_OVERFLOW_MSG);
        return;
      }
      len := len + 1;
      if len >= U32_MAX {
        o := Panicked(COUNT_OVERFLOW_MSG);
        return;
      }
      o := Returned(Ok(()));
    }

    /** `push`: inserts at position `len` (cast to `u32`). */
    method Push(item: MenuItem, inserted: bool, sys: SystemError) returns (o: Outcome<Result<(), Error>>)
      modifies this, item
      ensures item.Snapshot() == Taken(old(item.Snapshot())).1
      ensures (o, len) == Inserted(old(len), Taken(old(item.Snapshot())).0, inserted, sys)
      ensures var taken := Taken(old(item.Snapshot())).0;
        calls == old(calls) + (if taken.Returned? then [(old(len) % (U32_MAX + 1), taken.value)] else [])
    {
      o := Insert(len % (U32_MAX + 1), item, inserted, sys);
    }
  }

  /** `Menu::new`, given the handle `CreateMenu` returns (0 on failure). */
  method NewMenu(created: Handle, sys: SystemError) returns (r: Result<Menu, Error>)
    ensures r.Ok? <==> created != 0
    ensures r.Ok? ==> fresh(r.value) && r.value.handle == created && r.value.len == 0 && r.value.calls == []
    ensures r.Err? ==> r.error == LastErrorOf("CreateMenu", sys)
  {
    if created == 0 {
      var e := LastError("CreateMenu", sys);
      r := Err(e);
    } else {
      var m := new Menu(created);
      r := Ok(m);
    }
  }

  /**
   * A new menu with one string item pushed successfully holds one item at position 0,
   * the string's record.
   */
  method PushOntoNewMenu(created: Handle, sys: SystemError) returns (n: Usize, empty: bool)
    requires created != 0
    ensures n == 1 && !empty
  {
    var r := NewMenu(created, sys);
    var menu := r.value;
    var hello: CStr := [0x48, 0x65, 0x6C, 0x6C, 0x6F];
    var item := new MenuItem.FromString(hello);
    var o := menu.Push(item, true, sys);
    assert menu.calls == [(0, InfoOf(NewItem(String(hello))))];
    n := menu.Len();
    empty := menu.IsEmpty();
  }
}

=== FILE: native.dfy ===
/**
 * Stand-ins for the parts of Win32 the core talks to: window handles, messages and their
 * numbers, and the calling thread's message queue as `PostQuitMessage` and
 * `PeekMessageA(PM_REMOVE)` see it.
 */
module Native {
  import opened Wrappers
  import opened Lib

  /** `HWND`: a pointer-sized handle; 0 is the null window. */
  type Hwnd = Isize

  /** `HANDLE`, `HBITMAP`, `HMENU`: pointer-sized handles; 0 is null. */
  type Handle = Isize

  /** `LRESULT`: the window procedure's result. */
  type LResult = Isize

  const WM_CREATE: U32 := 0x0001
  const WM_DESTROY: U32 := 0x0002
  const WM_QUIT: U32 := 0x0012
  const WM_GETMINMAXINFO: U32 := 0x0024
  const WM_NCCREATE: U32 := 0x0081
  const WM_NCDESTROY: U32 := 0x0082

  /** A queued `MSG`: target window, message number and its two parameters. */
  datatype Msg = Msg(hwnd: Hwnd, message: U32, wParam: Usize, lParam: Isize)

  /** The message `PeekMessageA` hands out after `PostQuitMessage(0)`. */
  const QUIT_MSG: Msg := Msg(0, WM_QUIT, 0, 0)

  /**
   * The thread's message queue: the posted messages, oldest first, and the flag that
   * `PostQuitMessage` sets.
   */
  datatype QueueView = QueueView(posted: seq<Msg>, quitPosted: bool)

  /**
   * `PeekMessageA(.., PM_REMOVE)`: removes and returns the oldest posted message; with none
   * left, a pending quit request is returned (once) as WM_QUIT; otherwise nothing.
   */
  function Peek(q: QueueView): (r: (Option<Msg>, QueueView))
    ensures r.0.None? <==> q.posted == [] && !q.quitPosted
    ensures q.posted != [] ==> r == (Some(q.posted[0]), q.(posted := q.posted[1..]))
    ensures q.posted == [] && q.quitPosted ==> r == (Some(QUIT_MSG), QueueView([], false))
  {
    if q.posted != [] then (Some(q.posted[0]), q.(posted := q.posted[1..]))
    else if q.quitPosted then (Some(QUIT_MSG), QueueView([], false))
    else (None, q)
  }

  /** The calling thread's message queue, shared by the client and the reactor. */
  class ThreadQueue {
    var posted: seq<Msg>
    var quitPosted: bool

    function View(): QueueView
      reads this
    {
      QueueView(posted, quitPosted)
    }

    constructor (posted: seq<Msg>)
      ensures View() == QueueView(posted, false)
    {
      this.posted := posted;
      quitPosted := false;
    }

    /** `PostQuitMessage(0)`: requests a WM_QUIT; the posted messages are untouched. */
    method PostQuitMessage()
      modifies this
      ensures posted == old(posted) && quitPosted
    {
      quitPosted := true;
    }

    /** `PeekMessageA(.., PM_REMOVE)`. */
    method PeekMessage() returns (m: Option<Msg>)
      modifies this
      ensures (m, View()) == Peek(old(View()))
    {
      if posted != [] {
        m := Some(posted[0]);
        posted := posted[1..];
      } else if quitPosted {
        m := Some(QUIT_MSG);
        quitPosted := false;
      } else {
        m := None;
      }
    }

    /** New messages reach the queue while the thread waits. */
    method Arrive(msgs: seq<Msg>)
      modifies this
      ensures posted == old(posted) + msgs && quitPosted == old(quitPosted)
    {
      posted := posted + msgs;
    }
  }
}

=== FILE: reactor.dfy ===
/**
 * The reactor (src/reactor.rs): `block_on` alternates between polling a future and
 * draining the thread's message queue, waiting in between; `run` blocks on a future that
 * never completes. The wake event that the future's waker sets is kept as its handle.
 *
 * The future is a script of poll results (`None` for Pending, `Some(v)` for Ready(v);
 * past its end it stays Pending), and each wait is a script entry giving the code
 * `MsgWaitForMultipleObjectsEx` returns and the messages that arrived meanwhile.
 */
module Reactor {
  import opened Wrappers
  import opened Lib
  import opened Native

  const WAIT_FAILED: U32 := 0xFFFF_FFFF

  // ---------------------------------------------------------------------------------------
  // The wake event
  // ---------------------------------------------------------------------------------------

  /** `Event`: an owned Win32 event handle. */
  datatype WakeEvent = WakeEvent(handle: Handle)

  /** `Event::new`, given the handle `CreateEventW` returns (0 on failure). */
  function NewEvent(created: Handle, sys: SystemError): (r: Result<WakeEvent, Error>)
    ensures r.Ok? <==> created != 0
    ensures r.Ok? ==> r.value.handle == created
    ensures r.Err? ==> r.error == LastErrorOf("CreateEventA", sys)
  {
    if created == 0 then Err(LastErrorOf("CreateEventA", sys)) else Ok(WakeEvent(created))
  }

  /** `Event::set`, given whether `SetEvent` succeeded. */
  function Set(e: WakeEvent, succeeded: bool, sys: SystemError): (r: Result<(), Error>)
    ensures r.Ok? <==> succeeded
    ensures r.Err? ==> r.error == LastErrorOf("SetEvent", sys)
  {
    if succeeded then Ok(()) else Err(LastErrorOf("SetEvent", sys))
  }

  /** `Event::try_clone`, given whether `DuplicateHandle` succeeded and the duplicate. */
  function TryClone(e: WakeEvent, succeeded: bool, duplicate: Handle, sys: SystemError): (r: Result<WakeEvent, Error>)
    ensures r.Ok? <==> succeeded
    ensures r.Ok? ==> r.value.handle == duplicate
    ensures r.Err? ==> r.error == LastErrorOf("DuplicateHandle", sys)
  {
    if succeeded then Ok(WakeEvent(duplicate)) else Err(LastErrorOf("DuplicateHandle", sys))
  }

  /**
   * `wake_by_ref`: sets the event; a failure is only logged, never returned. The result
   * is the error written to the log, if any.
   */
  function WakeByRef(e: WakeEvent, setSucceeded: bool, sys: SystemError): (logged: Option<Error>)
    ensures logged.None? <==> Set(e, setSucceeded, sys).Ok?
    ensures logged.Some? ==> logged.value == LastErrorOf("SetEvent", sys)
  {
    match Set(e, setSucceeded, sys)
    case Ok(_) => None
    case Err(err) => Some(err)
  }

  /** `Event::raw`: the handle as a pointer. */
  function Raw(e: WakeEvent): Ptr
  {
    Invalid(e.handle)
  }

  /** `Event::from_raw`: takes ownership of the handle behind a pointer. */
  function FromRaw(p: Ptr): WakeEvent
  {
    WakeEvent(Addr(p))
  }

  /**
   * `drop`, given whether `CloseHandle` succeeded: the handles closed, and the error written
   * to the log when the close failed (the failure is never returned).
   */
  function Dropped(e: WakeEvent, closeSucceeded: bool, sys: SystemError): (r: (seq<Handle>, Option<Error>))
    ensures r.0 == [e.handle]
    ensures r.1.None? <==> closeSucceeded
    ensures r.1.Some? ==> r.1.value == LastErrorOf("CloseHandle", sys)
  {
    ([e.handle], if closeSucceeded then None else Some(LastErrorOf("CloseHandle", sys)))
  }

  /** `Event::into_raw`: the pointer, and no handle closed (the event is forgotten). */
  function IntoRaw(e: WakeEvent): (r: (Ptr, seq<Handle>))
    ensures r.1 == []
    ensures FromRaw(r.0) == e
  {
    (Raw(e), [])
  }

  /** `from_raw` after `raw` gives back the same event, and `raw` after `from_raw` the pointer. */
  lemma RawRoundTrip(e: WakeEvent, p: Ptr)
    ensures FromRaw(Raw(e)) == e
    ensures Raw(FromRaw(p)) == p
  {
    AddrOfInvalid(e.handle);
    InvalidOfAddr(p);
  }

  /**
   * An event passed through `into_raw` and taken back by `from_raw` has its handle closed
   * exactly once over both: `into_raw` closes nothing and the event rebuilt by `from_raw`
   * closes it when dropped.
   */
  lemma RawHandOffClosesOnce(e: WakeEvent, closeSucceeded: bool, sys: SystemError)
    ensures IntoRaw(e).1 + Dropped(FromRaw(IntoRaw(e).0), closeSucceeded, sys).0 == [e.handle]
  {
    RawRoundTrip(e, Raw(e));
  }

  /**
   * A duplicate made by `try_clone` owns its own handle: dropping the original and the
   * duplicate closes each of the two handles once, and dropping the duplicate leaves the
   * original's handle open.
   */
  lemma ClonesCloseOwnHandles(e: WakeEvent, duplicate: Handle, c1: bool, c2: bool, sys: SystemError)
    requires duplicate != e.handle
    ensures
      var d := TryClone(e, true, duplicate, sys).value;
      && Dropped(d, c2, sys).0 == [duplicate]
      && e.handle !in Dropped(d, c2, sys).0
      && multiset(Dropped(e, c1, sys).0 + Dropped(d, c2, sys).0) == multiset{e.handle, duplicate}
  {
    var d := TryClone(e, true, duplicate, sys).value;
    assert Dropped(e, c1, sys).0 + Dropped(d, c2, sys).0 == [e.handle, duplicate];
  }

  // ---------------------------------------------------------------------------------------
  // drain_queue
  // ---------------------------------------------------------------------------------------

  /** `DrainStatus`: how many messages were taken off the queue, and whether one was WM_QUIT. */
  datatype DrainStatus = DrainStatus(messages: nat, quit: bool)

  /**
   * `drain_queue` on the thread's queue: takes messages off until the queue is empty or a
   * WM_QUIT comes out. Gives the queue left, the messages dispatched (in order), and the
   * status.
   */
  function Drain(q: QueueView): (r: (QueueView, seq<Msg>, DrainStatus))
    ensures r.2.messages == |r.1| + (if r.2.quit then 1 else 0)
    ensures !r.2.quit ==> r.0 == QueueView([], false)
    decreases |q.posted|
  {
    var (m, q1) := Peek(q);
    match m
    case None => (q1, [], DrainStatus(0, false))
    case Some(msg) =>
      if msg.message == WM_QUIT then (q1, [], DrainStatus(1, true))
      else
        var (q2, d, st) := Drain(q1);
        (q2, [msg] + d, DrainStatus(st.messages + 1, st.quit))
  }

  /**
   * The drain dispatches a prefix of the posted messages, none of them a WM_QUIT, and
   * only consumes the quit request when no message is left before it.
   */
  lemma {:induction false} DrainTakesPrefix(q: QueueView)
    ensures var (q1, d, st) := Drain(q);
      && |d| <= |q.posted| && d == q.posted[..|d|] && NoQuit(d)
      && (q1.quitPosted ==> q.quitPosted)
    decreases |q.posted|
  {
    var (m, q1) := Peek(q);
    if m.Some? && m.value.message != WM_QUIT {
      DrainTakesPrefix(q1);
      var d1 := Drain(q1).1;
      assert q.posted == [q.posted[0]] + q1.posted;
      assert Drain(q).1 == [q.posted[0]] + d1;
      assert [q.posted[0]] + q1.posted[..|d1|] == q.posted[..|d1| + 1];
    }
  }

  /** The drain's outcome once `done` has already been dispatched and `q` is what is left. */
  function Resume(done: seq<Msg>, q: QueueView): (QueueView, seq<Msg>, DrainStatus)
  {
    var (q1, d, st) := Drain(q);
    (q1, done + d, DrainStatus(|done| + st.messages, st.quit))
  }

  /** One step of the drain: what the first `PeekMessageA` returns decides the rest. */
  lemma ResumeStep(done: seq<Msg>, q: QueueView, m: Option<Msg>, q1: QueueView)
    requires (m, q1) == Peek(q)
    ensures m.None? ==> Resume(done, q) == (q1, done, DrainStatus(|done|, false))
    ensures m.Some? && m.value.message == WM_QUIT ==> Resume(done, q) == (q1, done, DrainStatus(|done| + 1, true))
    ensures m.Some? && m.value.message != WM_QUIT ==> Resume(done, q) == Resume(done + [m.value], q1)
  {
    if m.Some? && m.value.message != WM_QUIT {
      assert done + ([m.value] + Drain(q1).1) == (done + [m.value]) + Drain(q1).1;
    } else {
      assert done + [] == done;
    }
  }

  predicate NoQuit(ms: seq<Msg>)
  {
    forall i :: 0 <= i < |ms| ==> ms[i].message != WM_QUIT
  }

  /**
   * With no WM_QUIT among the posted messages, the drain dispatches them all in order; it
   * then reports quit exactly when `PostQuitMessage` had been called, counting that too.
   */
  lemma {:induction false} DrainDispatchesAll(q: QueueView)
    requires NoQuit(q.posted)
    ensures Drain(q) == (QueueView([], false), q.posted,
                         DrainStatus(|q.posted| + (if q.quitPosted then 1 else 0), q.quitPosted))
    decreases |q.posted|
  {
    if q.posted != [] {
      DrainDispatchesAll(q.(posted := q.posted[1..]));
      assert [q.posted[0]] + q.posted[1..] == q.posted;
    }
  }

  /**
   * The first WM_QUIT posted ends the drain: it is counted but not dispatched, the
   * messages before it are dispatched in order, those after it stay queued.
   */
  lemma {:induction false} DrainStopsAtFirstQuit(q: QueueView, i: nat)
    requires i < |q.posted| && q.posted[i].message == WM_QUIT && NoQuit(q.posted[..i])
    ensures Drain(q) == (q.(posted := q.posted[i + 1..]), q.posted[..i], DrainStatus(i + 1, true))
    decreases i
  {
    if i > 0 {
      var q1 := q.(posted := q.posted[1..]);
      assert q1.posted[..i - 1] == q.posted[1..i];
      assert NoQuit(q1.posted[..i - 1]) by {
        forall k | 0 <= k < i - 1 ensures q1.posted[k].message != WM_QUIT {
          assert q1.posted[k] == q.posted[..i][k + 1];
        }
      }
      assert q.posted[0] == q.posted[..i][0];
      DrainStopsAtFirstQuit(q1, i - 1);
      assert q1.posted[i - 1 + 1..] == q.posted[i + 1..];
      assert [q.posted[0]] + q1.posted[..i - 1] == q.posted[..i];
    }
  }

  // ---------------------------------------------------------------------------------------
  // block_on
  // ---------------------------------------------------------------------------------------

  /** One return of `MsgWaitForMultipleObjectsEx`, and the messages posted while waiting. */
  datatype Wait = Wait(code: U32, arrivals: seq<Msg>)

  /**
   * Where the loop stands when its script runs out: the queue, the messages dispatched,
   * and `block_on`'s result, or `None` when the thread is still blocked in a wait.
   */
  datatype Progress<R> = Progress(queue: QueueView, dispatched: seq<Msg>, result: Option<Result<Option<R>, Error>>)

  function Prepend<R>(d: seq<Msg>, r: Progress<R>): Progress<R>
  {
    r.(dispatched := d + r.dispatched)
  }

  /** The future's `p`-th poll: Pending once its script is exhausted. */
  function PollAt<R>(polls: seq<Option<R>>, p: nat): Option<R>
  {
    if p < |polls| then polls[p] else None
  }

  /** The outer loop: poll the future; when it is not ready, go and drain. */
  function PollPhase<R>(polls: seq<Option<R>>, p: nat, waits: seq<Wait>, w: nat, q: QueueView, sys: SystemError)
    : (r: Progress<R>)
    requires w <= |waits|
    decreases |waits| - w, 1
  {
    match PollAt(polls, p)
    case Some(v) => Progress(q, [], Some(Ok(Some(v))))
    case None => DrainPhase(polls, p + 1, waits, w, q, sys)
  }

  /**
   * The inner loop: drain; on quit return `Ok(None)`; otherwise wait. Code 0 (the waker)
   * polls again, WAIT_FAILED returns the last error, and 1 (new input) or any other code
   * drains again.
   */
  function DrainPhase<R>(polls: seq<Option<R>>, p: nat, waits: seq<Wait>, w: nat, q: QueueView, sys: SystemError)
    : (r: Progress<R>)
    requires w <= |waits|
    decreases |waits| - w, 0
  {
    var (q1, d, st) := Drain(q);
    if st.quit then Progress(q1, d, Some(Ok(None)))
    else if w == |waits| then Progress(q1, d, None)
    else
      var q2 := q1.(posted := q1.posted + waits[w].arrivals);
      if waits[w].code == 0 then Prepend(d, PollPhase(polls, p, waits, w + 1, q2, sys))
      else if waits[w].code == WAIT_FAILED then
        Progress(q2, d, Some(Err(LastErrorOf("MsgWaitForMultipleObjectsEx", sys))))
      else Prepend(d, DrainPhase(polls, p, waits, w + 1, q2, sys))
  }

  /** A future ready at its first poll: its value is returned and no message is touched. */
  lemma ReadyFirst<R>(polls: seq<Option<R>>, waits: seq<Wait>, q: QueueView, sys: SystemError)
    requires polls != [] && polls[0].Some?
    ensures PollPhase(polls, 0, waits, 0, q, sys) == Progress(q, [], Some(Ok(Some(polls[0].value))))
  {
  }

  /**
   * After `PostQuitMessage`, a future that is not ready returns `Ok(None)` after one drain:
   * the posted messages (none a WM_QUIT) are dispatched, and nothing is waited for.
   */
  lemma QuitEndsBlockOn<R>(polls: seq<Option<R>>, waits: seq<Wait>, q: QueueView, sys: SystemError)
    requires q.quitPosted && NoQuit(q.posted)
    requires polls == [] || polls[0].None?
    ensures PollPhase(polls, 0, waits, 0, q, sys) == Progress(QueueView([], false), q.posted, Some(Ok(None)))
  {
    DrainDispatchesAll(q);
  }

  /** `block_on` returned the future's value. */
  predicate Yields<R>(r: Option<Result<Option<R>, Error>>)
  {
    r.Some? && r.value.Ok? && r.value.value.Some?
  }

  /** A future that is never ready never makes `block_on` return a value. */
  lemma {:induction false} PendingNeverReady(p: nat, waits: seq<Wait>, w: nat, q: QueueView, sys: SystemError, inPoll: bool)
    requires w <= |waits|
    ensures inPoll ==> !Yields(PollPhase<()>([], p, waits, w, q, sys).result)
    ensures !inPoll ==> !Yields(DrainPhase<()>([], p, waits, w, q, sys).result)
    decreases |waits| - w, if inPoll then 1 else 0
  {
    if inPoll {
      PendingNeverReady(p + 1, waits, w, q, sys, false);
    } else {
      var (q1, d, st) := Drain(q);
      if !st.quit && w < |waits| {
        var q2 := q1.(posted := q1.posted + waits[w].arrivals);
        PendingNeverReady(p, waits, w + 1, q2, sys, waits[w].code == 0);
      }
    }
  }

  lemma PrefixThenRest(a: seq<Msg>, s: seq<Msg>)
    requires a <= s
    ensures s == a + s[|a|..]
  {
    assert s == s[..|a|] + s[|a|..];
  }

  lemma PrependTwice<R>(a: seq<Msg>, b: seq<Msg>, r: Progress<R>)
    ensures Prepend(a, Prepend(b, r)) == Prepend(a + b, r)
  {
    assert a + (b + r.dispatched) == (a + b) + r.dispatched;
  }

  lemma Associative(a: seq<Msg>, b: seq<Msg>, c: seq<Msg>)
    ensures (a + b) + c == a + (b + c)
  {
  }

  lemma Suffix(a: seq<Msg>, b: seq<Msg>)
    ensures (a + b)[|a|..] == b
  {
  }

  /**
   * One turn of the inner loop, after `acc` has been dispatched on the way to `target`:
   * the drain, then what the wait returned.
   */
  lemma DrainTurn<R>(polls: seq<Option<R>>, p: nat, waits: seq<Wait>, w: nat, q: QueueView, sys: SystemError,
                     acc: seq<Msg>, target: Progress<R>)
    requires w <= |waits|
    requires Prepend(acc, DrainPhase(polls, p, waits, w, q, sys)) == target
    ensures var (q1, d, st) := Drain(q);
      && (st.quit ==> Progress(q1, acc + d, Some(Ok(None))) == target)
      && (!st.quit && w == |waits| ==> Progress(q1, acc + d, None) == target)
      && (!st.quit && w < |waits| ==>
            var q2 := q1.(posted := q1.posted + waits[w].arrivals);
            && (waits[w].code == 0 ==> Prepend(acc + d, PollPhase(polls, p, waits, w + 1, q2, sys)) == target)
            && (waits[w].code == WAIT_FAILED ==>
                  Progress(q2, acc + d, Some(Err(LastErrorOf("MsgWaitForMultipleObjectsEx", sys)))) == target)
            && (waits[w].code != 0 && waits[w].code != WAIT_FAILED ==>
                  Prepend(acc + d, DrainPhase(polls, p, waits, w + 1, q2, sys)) == target))
  {
    var (q1, d, st) := Drain(q);
    if !st.quit && w < |waits| {
      var q2 := q1.(posted := q1.posted + waits[w].arrivals);
      PrependTwice(acc, d, PollPhase(polls, p, waits, w + 1, q2, sys));
      PrependTwice(acc, d, DrainPhase(polls, p, waits, w + 1, q2, sys));
    }
  }

  /** What `run` makes of `block_on`'s result: `Ok(None)` becomes `Ok(())`, errors pass. */
  function RunResult(r: Option<Result<Option<()>, Error>>): Option<Result<(), Error>>
  {
    match r
    case None => None
    case Some(Err(e)) => Some(Err(e))
    case Some(Ok(_)) => Some(Ok(()))
  }

  // ---------------------------------------------------------------------------------------
  // Reactor
  // ---------------------------------------------------------------------------------------

  /**
   * `Reactor`: the wake event, the thread's queue it drains, the messages it has
   * translated and dispatched, and how many times it signalled that a message was handled.
   */
  class Reactor {
    const notify: WakeEvent
    const thread: ThreadQueue
    var dispatched: seq<Msg>
    var signals: nat

    constructor (notify: WakeEvent, thread: ThreadQueue)
      ensures this.notify == notify && this.thread == thread
      ensures dispatched == [] && signals == 0
    {
      this.notify := notify;
      this.thread := thread;
      dispatched := [];
      signals := 0;
    }

    /** `drain_queue`: each message dispatched is followed by one signal. */
    method DrainQueue() returns (status: DrainStatus)
      modifies this, thread
      ensures var (q, d, st) := Drain(old(thread.View()));
        thread.View() == q && dispatched == old(dispatched) + d && status == st
      ensures signals == old(signals) + (|dispatched| - |old(dispatched)|)
    {
      status := DrainStatus(0, false);
      ghost var acc: seq<Msg> := [];
      assert [] + Drain(thread.View()).1 == Drain(thread.View()).1;
      while true
        invariant dispatched == old(dispatched) + acc
        invariant signals == old(signals) + |acc|
        invariant status == DrainStatus(|acc|, false)
        invariant Resume(acc, thread.View()) == Drain(old(thread.View()))
        decreases |thread.posted|
      {
        ghost var before := thread.View();
        var m := thread.PeekMessage();
        ResumeStep(acc, before, m, thread.View());
        if m.None? {
          break;
        }
        status := status.(messages := status.messages + 1);
        if m.value.message == WM_QUIT {
          status := status.(quit := true);
          break;
        }
        dispatched := dispatched + [m.value];
        signals := signals + 1;
        acc := acc + [m.value];
      }
    }

    /**
     * One turn of `block_on`'s inner loop: drain the queue (dispatching `d`), then wait.
     * The loop stops on WM_QUIT, at the end of the wait script, on the waker's code 0
     * (`woken`: the future is polled again with the next wait `next`) and on WAIT_FAILED;
     * what remains of the loop's result `target` after `acc` is told by the outcome.
     */
    method InnerTurn<R>(polls: seq<Option<R>>, p: nat, waits: seq<Wait>, w: nat, sys: SystemError,
                        ghost acc: seq<Msg>, ghost target: Progress<R>)
      returns (next: nat, stop: bool, woken: bool, res: Option<Result<Option<R>, Error>>, ghost d: seq<Msg>)
      requires w <= |waits|
      requires Prepend(acc, DrainPhase(polls, p, waits, w, thread.View(), sys)) == target
      modifies this, thread
      ensures dispatched == old(dispatched) + d && signals == old(signals) + |d|
      ensures woken ==> stop
      ensures !stop || woken ==> next == w + 1 <= |waits|
      ensures !stop ==> Prepend(acc + d, DrainPhase(polls, p, waits, next, thread.View(), sys)) == target
      ensures woken ==> Prepend(acc + d, PollPhase(polls, p, waits, next, thread.View(), sys)) == target
      ensures stop && !woken ==> Progress(thread.View(), acc + d, res) == target
    {
      DrainTurn(polls, p, waits, w, thread.View(), sys, acc, target);
      d := Drain(thread.View()).1;
      var status := DrainQueue();
      next, stop, woken, res := w, true, false, None;
      if status.quit {
        res := Some(Ok(None));
        return;
      }
      if w == |waits| {
        return;
      }
      var code := waits[w].code;
      thread.Arrive(waits[w].arrivals);
      next := w + 1;
      if code == 0 {
        woken := true;
      } else if code == WAIT_FAILED {
        var e := LastError("MsgWaitForMultipleObjectsEx", sys);
        res := Some(Err(e));
      } else {
        stop := false;
      }
    }

    /** `block_on`, with the future's polls and the waits scripted. */
    method BlockOn<R>(polls: seq<Option<R>>, waits: seq<Wait>, sys: SystemError)
      returns (res: Option<Result<Option<R>, Error>>)
      modifies this, thread
      ensures var run := PollPhase(polls, 0, waits, 0, old(thread.View()), sys);
        thread.View() == run.queue && dispatched == old(dispatched) + run.dispatched && res == run.result
      ensures signals == old(signals) + (|dispatched| - |old(dispatched)|)
    {
      var p, w := 0, 0;
      ghost var acc: seq<Msg> := [];
      ghost var target := PollPhase(polls, 0, waits, 0, old(thread.View()), sys);
      assert Prepend([], target) == target;
      while true
        invariant w <= |waits|
        invariant dispatched == old(dispatched) + acc
        invariant signals == old(signals) + |acc|
        invariant Prepend(acc, PollPhase(polls, p, waits, w, thread.View(), sys)) == target
        decreases |waits| - w
      {
        var ready := PollAt(polls, p);
        if ready.Some? {
          res := Some(Ok(Some(ready.value)));
          assert acc + [] == acc;
          return;
        }
        ghost var q := thread.View();
        assert PollPhase(polls, p, waits, w, q, sys) == DrainPhase(polls, p + 1, waits, w, q, sys);
        p := p + 1;
        ghost var before := acc;
        ghost var mid := dispatched;
        var woken;
        w, woken, res := DrainAndWait(polls, p, waits, w, sys);
        ghost var d := dispatched[|mid|..];
        PrefixThenRest(mid, dispatched);
        Associative(old(dispatched), before, d);
        acc := acc + d;
        if !woken {
          PrependTwice(before, d, Progress(thread.View(), [], res));
          assert d + [] == d;
          return;
        }
        PrependTwice(before, d, PollPhase(polls, p, waits, w, thread.View(), sys));
      }
    }

    /**
     * The inner loop of `block_on`: drain, then wait, until the waker's event is set
     * (`woken`, the future is polled again) or the loop ends with `res`.
     */
    method DrainAndWait<R>(polls: seq<Option<R>>, p: nat, waits: seq<Wait>, w0: nat, sys: SystemError)
      returns (w: nat, woken: bool, res: Option<Result<Option<R>, Error>>)
      requires w0 <= |waits|
      modifies this, thread
      ensures woken ==> w0 < w <= |waits|
      ensures old(dispatched) <= dispatched
      ensures woken ==>
        Prepend(dispatched[|old(dispatched)|..], PollPhase(polls, p, waits, w, thread.View(), sys))
          == DrainPhase(polls, p, waits, w0, old(thread.View()), sys)
      ensures !woken ==>
        Progress(thread.View(), dispatched[|old(dispatched)|..], res) == DrainPhase(polls, p, waits, w0, old(thread.View()), sys)
      ensures signals == old(signals) + (|dispatched| - |old(dispatched)|)
    {
      w := w0;
      ghost var acc: seq<Msg> := [];
      ghost var target := DrainPhase(polls, p, waits, w0, old(thread.View()), sys);
      assert Prepend([], target) == target;
      while true
        invariant w0 <= w <= |waits|
        invariant dispatched == old(dispatched) + acc
        invariant signals == old(signals) + |acc|
        invariant Prepend(acc, DrainPhase(polls, p, waits, w, thread.View(), sys)) == target
        decreases |waits| - w
      {
        ghost var before := acc;
        var next, stop, wk, r, d := InnerTurn(polls, p, waits, w, sys, acc, target);
        acc := acc + d;
        w := next;
        Associative(old(dispatched), before, d);
        Suffix(old(dispatched), acc);
        if stop {
          woken, res := wk, r;
          return;
        }
      }
    }

    /** `run`: blocks on a future that is never ready. */
    method Run(waits: seq<Wait>, sys: SystemError) returns (res: Option<Result<(), Error>>)
      modifies this, thread
      ensures old(dispatched) <= dispatched
      ensures var run := PollPhase<()>([], 0, waits, 0, old(thread.View()), sys);
        thread.View() == run.queue && dispatched == old(dispatched) + run.dispatched
      ensures signals == old(signals) + (|dispatched| - |old(dispatched)|)
      ensures res == RunResult(PollPhase<()>([], 0, waits, 0, old(thread.View()), sys).result)
      ensures res == Some(Ok(())) <==>
        PollPhase<()>([], 0, waits, 0, old(thread.View()), sys).result == Some(Ok(None))
    {
      PendingNeverReady(0, waits, 0, thread.View(), sys, true);
      var r := BlockOn<()>([], waits, sys);
      match r {
        case None =>
          res := None;
        case Some(Err(e)) =>
          res := Some(Err(e));
        case Some(Ok(None)) =>
          res := Some(Ok(()));
        case Some(Ok(Some(_))) =>
          assert false;
      }
    }
  }

  /** `Reactor::new`, given the handle `CreateEventW` returns. */
  method NewReactor(thread: ThreadQueue, created: Handle, sys: SystemError) returns (r: Result<Reactor, Error>)
    ensures r.Ok? <==> created != 0
    ensures r.Ok? ==>
      fresh(r.value) && r.value.notify == WakeEvent(created) && r.value.thread == thread && r.value.dispatched == []
      && r.value.signals == 0
    ensures r.Err? ==> r.error == LastErrorOf("CreateEventA", sys)
  {
    match NewEvent(created, sys) {
      case Err(e) =>
        r := Err(e);
      case Ok(ev) =>
        var reactor := new Reactor(ev, thread);
        r := Ok(reactor);
    }
  }
}

=== FILE: window.dfy ===
/**
 * Per-window dispatch state (src/window.rs): the event queue, the re-entrancy counter, the
 * deferred-panic slot, and the handler that consumes queued events; plus the flag
 * derivation of `set_window_pos`.
 *
 * The dispatch discipline is specified on values (`Dispatch` and the functions over it)
 * and implemented by the `WindowData` class, whose methods change its fields in place.
 */
module Window {
  import opened Wrappers
  import opened Lib
  import opened Native

  /** `Event` (src/event.rs): what happened to a window. */
  datatype Event = Created

  /** The boxed user data `T` handed to `create_window`; opaque to the core. */
  datatype UserData = UserData(id: nat)

  /**
   * The user's event handler, seen from outside: how its k-th call on a window ends, by
   * returning (`None`) or by panicking with a payload.
   */
  type Handler = nat -> Option<Payload>

  /**
   * The abstract state of one window: pending events (front first), the re-entrancy count
   * (`None` outside every scope), the deferred panic, and every event handed to the
   * handler so far, in order.
   */
  datatype Dispatch = Dispatch(
    queue: seq<Event>,
    count: Option<nat>,
    panic: Option<Payload>,
    delivered: seq<Event>)

  /** The count is an `Option<NonZeroU32>`. */
  predicate ValidDispatch(s: Dispatch)
  {
    s.count.None? || 1 <= s.count.value <= U32_MAX
  }

  /** `WindowData::new`: empty queue, no scope open, no panic, nothing delivered. */
  const FRESH: Dispatch := Dispatch([], None, None, [])

  const BEGIN_OVERFLOW_MSG: string := "Re-entrancy count overflowed."
  const NOT_SET_MSG: string := "Re-entrancy count is not set."
  const TWO_PANICS_MSG: string := "Two simultaneous panics in the same event procedure."

  // ---------------------------------------------------------------------------------------
  // Specification of the dispatch discipline
  // ---------------------------------------------------------------------------------------

  /** `push`: the event joins the tail of the queue. */
  function Pushed(s: Dispatch, e: Event): Dispatch
  {
    s.(queue := s.queue + [e])
  }

  /**
   * Offset of the first of the `n` handler calls numbered from `start` on that panics;
   * `n` when none of them does.
   */
  function FirstPanic(h: Handler, start: nat, n: nat): (k: nat)
    ensures k <= n
    ensures forall j :: start <= j < start + k ==> h(j).None?
    ensures k < n ==> h(start + k).Some?
    decreases n
  {
    if n == 0 then 0
    else if h(start).Some? then 0
    else 1 + FirstPanic(h, start + 1, n - 1)
  }

  /**
   * `process`: pops events front to back, handing each to the handler; a panicking
   * handler call ends the drain, with the later events still queued.
   */
  function Drained(s: Dispatch, h: Handler): (r: (Dispatch, Outcome<()>))
    ensures r.0.count == s.count && r.0.panic == s.panic
    ensures r.1.Returned? || r.1.Panicked?
    decreases |s.queue|
  {
    if s.queue == [] then (s, Returned(()))
    else
      var next := s.(queue := s.queue[1..], delivered := s.delivered + [s.queue[0]]);
      match h(|s.delivered|)
      case Some(p) => (next, Panicked(p))
      case None => Drained(next, h)
  }

  /** `begin`, with the guard taking effect only once the count has been raised. */
  function Begun(s: Dispatch): (r: (Dispatch, Outcome<()>))
    requires ValidDispatch(s)
    ensures ValidDispatch(r.0)
    ensures r.1.Returned? || r.1.Panicked?
    ensures s.count.None? ==> r == (s.(count := Some(1)), Returned(()))
    ensures s.count.Some? && s.count.value < U32_MAX ==>
      r == (s.(count := Some(s.count.value + 1)), Returned(()))
    ensures s.count == Some(U32_MAX) ==> r == (s, Panicked(BEGIN_OVERFLOW_MSG))
  {
    match s.count
    case None => (s.(count := Some(1)), Returned(()))
    case Some(n) =>
      if n + 1 > U32_MAX then (s, Panicked(BEGIN_OVERFLOW_MSG))
      else (s.(count := Some(n + 1)), Returned(()))
  }

  /**
   * Dropping the scope guard: an inner scope only lowers the count; the outermost resets
   * it to `None` and then processes the queue; with no scope open it panics.
   */
  function Released(s: Dispatch, h: Handler): (r: (Dispatch, Outcome<()>))
    requires ValidDispatch(s)
    ensures ValidDispatch(r.0) && r.0.panic == s.panic
    ensures r.1.Returned? || r.1.Panicked?
    ensures s.count.None? ==> r == (s, Panicked(NOT_SET_MSG))
    ensures s.count.Some? && s.count.value > 1 ==>
      r == (s.(count := Some(s.count.value - 1)), Returned(()))
    ensures s.count == Some(1) ==> r == Drained(s.(count := None), h)
  {
    match s.count
    case None => (s, Panicked(NOT_SET_MSG))
    case Some(n) =>
      if n - 1 == 0 then Drained(s.(count := None), h)
      else (s.(count := Some(n - 1)), Returned(()))
  }

  /**
   * `begin` as the source writes it: the guard exists before the count is raised, so when
   * raising it overflows, the guard's release runs while the panic unwinds.
   */
  function BegunAsWritten(s: Dispatch, h: Handler): (r: (Dispatch, Outcome<()>))
    requires ValidDispatch(s)
  {
    match s.count
    case Some(n) =>
      if n + 1 > U32_MAX then (Released(s, h).0, Panicked(BEGIN_OVERFLOW_MSG))
      else Begun(s)
    case None => Begun(s)
  }

  /**
   * The as-written `begin` that overflows lowers the count although it opened no scope:
   * the enclosing scopes lose one level, so the queue is processed one release too early.
   */
  lemma BeginOverflowLowersCount(s: Dispatch, h: Handler)
    requires ValidDispatch(s) && s.count == Some(U32_MAX)
    ensures BegunAsWritten(s, h).1.Panicked?
    ensures BegunAsWritten(s, h).0.count == Some(U32_MAX - 1)
    ensures Begun(s).0.count == Some(U32_MAX)
  {
  }

  /** `catch_panic(f)` given how `f` ended, on the panic slot. */
  function Caught(slot: Option<Payload>, f: Outcome<()>, std: bool): (r: (Option<Payload>, Outcome<()>))
    ensures !std ==> r == (slot, f)
    ensures !f.Panicked? ==> r == (slot, f)
    ensures std && f.Panicked? && slot.None? ==> r == (Some(f.payload), Returned(()))
    ensures std && f.Panicked? && slot.Some? ==> r.1 == Aborted(TWO_PANICS_MSG)
    ensures std ==> !r.1.Panicked?
  {
    if !std then (slot, f)
    else
      match f
      case Panicked(p) =>
        if slot.Some? then (Some(p), AbortMacro(TWO_PANICS_MSG)) else (Some(p), Returned(()))
      case _ => (slot, f)
  }

  /** `propagate_panic`: empties the slot and re-raises what it held; a no-op when empty. */
  function Propagated(slot: Option<Payload>, std: bool): (r: (Option<Payload>, Outcome<()>))
    ensures r.0.None? || !std
    ensures std && slot.Some? ==> r.1 == Panicked(slot.value)
    ensures slot.None? || !std ==> r == (slot, Returned(()))
  {
    if std && slot.Some? then (None, Panicked(slot.value)) else (slot, Returned(()))
  }

  /** A panic caught into an empty slot is re-raised unchanged by the next propagation. */
  lemma CatchThenPropagate(p: Payload)
    ensures Propagated(Caught(None, Panicked(p), true).0, true) == (None, Panicked(p))
  {
  }

  /**
   * The closure the window procedure (src/wndproc.rs) runs for an ordinary message: open a scope, queue `Created` for WM_CREATE,
   * close the scope (which processes the queue when it was the outermost one).
   */
  function Dispatched(s: Dispatch, h: Handler, msg: U32): (r: (Dispatch, Outcome<()>))
    requires ValidDispatch(s)
    ensures ValidDispatch(r.0) && r.0.panic == s.panic
    ensures r.1.Returned? || r.1.Panicked?
  {
    var (s1, b) := Begun(s);
    if !b.Returned? then (s1, b)
    else Released(if msg == WM_CREATE then Pushed(s1, Created) else s1, h)
  }

  /**
   * `catch_panic` around `Dispatched` (src/wndproc.rs): a panic is parked in the window's
   * slot.
   */
  function Handled(s: Dispatch, h: Handler, msg: U32, std: bool): (r: (Dispatch, Outcome<()>))
    requires ValidDispatch(s) && (!std ==> s.panic.None?)
    ensures ValidDispatch(r.0) && (!std ==> r.0.panic.None?)
    ensures std ==> !r.1.Panicked?
  {
    var (s1, f) := Dispatched(s, h, msg);
    var (slot, o) := Caught(s1.panic, f, std);
    (s1.(panic := slot), o)
  }

  // ---------------------------------------------------------------------------------------
  // Properties of the discipline
  // ---------------------------------------------------------------------------------------

  /**
   * A message other than WM_CREATE queues nothing: outside every scope its scope's release
   * processes what is already queued; inside one it leaves the state as it was.
   */
  lemma OtherMessagesQueueNothing(s: Dispatch, h: Handler, msg: U32)
    requires ValidDispatch(s) && msg != WM_CREATE && s.count != Some(U32_MAX)
    ensures s.count.None? ==> Dispatched(s, h, msg) == Drained(s, h)
    ensures s.count.Some? ==> Dispatched(s, h, msg) == (s, Returned(()))
  {
    if s.count.None? {
      var s1 := s.(count := Some(1));
      assert s1.(count := None) == s;
      assert Dispatched(s, h, msg) == Released(s1, h);
    } else {
      var s1 := s.(count := Some(s.count.value + 1));
      assert s1.(count := Some(s.count.value)) == s;
      assert Dispatched(s, h, msg) == Released(s1, h);
    }
  }

  /**
   * An outermost message processes the queue as it stands once the message has queued its
   * event (`Created` for WM_CREATE, nothing otherwise).
   */
  lemma OutermostDispatch(s: Dispatch, h: Handler, msg: U32)
    requires ValidDispatch(s) && s.count.None?
    ensures Dispatched(s, h, msg)
      == Drained(s.(queue := s.queue + (if msg == WM_CREATE then [Created] else [])), h)
  {
    var s1 := s.(count := Some(1));
    if msg == WM_CREATE {
      assert Pushed(s1, Created).(count := None) == s.(queue := s.queue + [Created]);
    } else {
      assert s.queue + [] == s.queue;
      assert s1.(count := None) == s;
    }
  }

  /** Skipping `k` calls that all return: those events are delivered, the rest remain. */
  lemma {:induction false} DrainedSkipsReturningCalls(s: Dispatch, h: Handler, k: nat)
    requires k <= |s.queue|
    requires forall j :: |s.delivered| <= j < |s.delivered| + k ==> h(j).None?
    ensures Drained(s, h)
      == Drained(s.(queue := s.queue[k..], delivered := s.delivered + s.queue[..k]), h)
    decreases k
  {
    if k > 0 {
      var next := s.(queue := s.queue[1..], delivered := s.delivered + [s.queue[0]]);
      assert h(|s.delivered|).None?;
      DrainedSkipsReturningCalls(next, h, k - 1);
      assert next.queue[k - 1..] == s.queue[k..];
      assert next.delivered + next.queue[..k - 1] == s.delivered + s.queue[..k];
    } else {
      assert s.queue[0..] == s.queue && s.delivered + s.queue[..0] == s.delivered;
    }
  }

  /**
   * When the call for the event at offset `k` is the first to panic, the drain delivers the
   * queue up to and including that event and reports its panic; the rest stay queued.
   */
  lemma DrainedStopsAtPanic(s: Dispatch, h: Handler, k: nat)
    requires k < |s.queue|
    requires forall j :: |s.delivered| <= j < |s.delivered| + k ==> h(j).None?
    requires h(|s.delivered| + k).Some?
    ensures Drained(s, h).0
      == s.(queue := s.queue[k + 1..], delivered := s.delivered + s.queue[..k + 1])
    ensures Drained(s, h).1 == Panicked(h(|s.delivered| + k).value)
  {
    DrainedSkipsReturningCalls(s, h, k);
    var mid := s.(queue := s.queue[k..], delivered := s.delivered + s.queue[..k]);
    assert |mid.delivered| == |s.delivered| + k;
    var next := mid.(queue := mid.queue[1..], delivered := mid.delivered + [mid.queue[0]]);
    assert Drained(mid, h) == (next, Panicked(h(|s.delivered| + k).value));
    assert next.queue == s.queue[k + 1..];
    assert next.delivered == s.delivered + s.queue[..k + 1];
  }

  /**
   * What `process` does in full: it delivers the queue front to back up to and including
   * the first call that panics; the events after it stay queued. Count and panic slot are
   * untouched.
   */
  lemma DrainedHandsOverInOrder(s: Dispatch, h: Handler, k: nat)
    requires k == FirstPanic(h, |s.delivered|, |s.queue|)
    ensures k == |s.queue| ==>
      Drained(s, h) == (s.(queue := [], delivered := s.delivered + s.queue), Returned(()))
    ensures k < |s.queue| ==>
      && Drained(s, h).0 == s.(queue := s.queue[k + 1..], delivered := s.delivered + s.queue[..k + 1])
      && Drained(s, h).1 == Panicked(h(|s.delivered| + k).value)
  {
    if k == |s.queue| {
      DrainedDeliversAll(s, h);
    } else {
      DrainedStopsAtPanic(s, h, k);
    }
  }

  /** A handler that never panics receives the whole queue, which ends up empty. */
  lemma DrainedDeliversAll(s: Dispatch, h: Handler)
    requires forall j :: |s.delivered| <= j < |s.delivered| + |s.queue| ==> h(j).None?
    ensures Drained(s, h) == (s.(queue := [], delivered := s.delivered + s.queue), Returned(()))
  {
    DrainedSkipsReturningCalls(s, h, |s.queue|);
    assert s.queue[..|s.queue|] == s.queue;
  }

  /** `n` nested `begin`s (ignoring their outcomes; none overflows). */
  function BeginTimes(s: Dispatch, n: nat): (r: Dispatch)
    requires ValidDispatch(s) && n <= U32_MAX
    requires s.count.None? || s.count.value + n <= U32_MAX
    ensures ValidDispatch(r)
    decreases n
  {
    if n == 0 then s else BeginTimes(Begun(s).0, n - 1)
  }

  /** `n` scope releases in a row (ignoring their outcomes). */
  function ReleaseTimes(s: Dispatch, n: nat, h: Handler): (r: Dispatch)
    requires ValidDispatch(s)
    ensures ValidDispatch(r)
    decreases n
  {
    if n == 0 then s else ReleaseTimes(Released(s, h).0, n - 1, h)
  }

  lemma {:induction false} BeginTimesCounts(s: Dispatch, n: nat)
    requires ValidDispatch(s) && s.count.None? && 1 <= n <= U32_MAX
    ensures BeginTimes(s, n) == s.(count := Some(n))
  {
    BeginTimesFrom(s.(count := Some(1)), 1, n - 1);
  }

  lemma {:induction false} BeginTimesFrom(s: Dispatch, k: nat, n: nat)
    requires s.count == Some(k) && 1 <= k && k + n <= U32_MAX
    ensures BeginTimes(s, n) == s.(count := Some(k + n))
    decreases n
  {
    if n > 0 {
      BeginTimesFrom(s.(count := Some(k + 1)), k + 1, n - 1);
    }
  }

  lemma {:induction false} InnerReleasesRunNothing(s: Dispatch, m: nat, h: Handler)
    requires ValidDispatch(s) && s.count.Some? && m < s.count.value
    ensures ReleaseTimes(s, m, h) == s.(count := Some(s.count.value - m))
    decreases m
  {
    if m > 0 {
      InnerReleasesRunNothing(s.(count := Some(s.count.value - 1)), m - 1, h);
    }
  }

  /**
   * Re-entrancy: open `n` nested scopes, push `es` inside them, and release the `n` scopes.
   * No release but the outermost hands anything to the handler; the outermost hands over
   * every queued event, the earlier ones first and then `es` in push order, and leaves the
   * count at `None`.
   */
  lemma NestedScopesDeliverOnce(s: Dispatch, n: nat, es: seq<Event>, h: Handler)
    requires ValidDispatch(s) && s.count.None? && 1 <= n <= U32_MAX
    requires forall j :: |s.delivered| <= j < |s.delivered| + |s.queue| + |es| ==> h(j).None?
    ensures
      var inner := BeginTimes(s, n).(queue := s.queue + es);
      && (forall m :: 0 <= m < n ==> ReleaseTimes(inner, m, h).delivered == s.delivered)
      && ReleaseTimes(inner, n, h) == s.(queue := [], delivered := s.delivered + s.queue + es)
  {
    BeginTimesCounts(s, n);
    var inner := BeginTimes(s, n).(queue := s.queue + es);
    forall m | 0 <= m < n
      ensures ReleaseTimes(inner, m, h).delivered == s.delivered
    {
      InnerReleasesRunNothing(inner, m, h);
    }
    InnerReleasesRunNothing(inner, n - 1, h);
    var last := inner.(count := Some(1));
    assert ReleaseTimes(inner, n, h) == ReleaseTimes(Released(last, h).0, 0, h) by {
      ReleaseTimesSplit(inner, n - 1, h);
    }
    DrainedDeliversAll(last.(count := None), h);
  }

  lemma {:induction false} ReleaseTimesSplit(s: Dispatch, m: nat, h: Handler)
    requires ValidDispatch(s)
    ensures ReleaseTimes(s, m + 1, h) == Released(ReleaseTimes(s, m, h), h).0
    decreases m
  {
    if m > 0 {
      ReleaseTimesSplit(Released(s, h).0, m - 1, h);
    }
  }

  // ---------------------------------------------------------------------------------------
  // WindowData
  // ---------------------------------------------------------------------------------------

  /** `WindowData`: one live window's state, updated in place. */
  class WindowData {
    const hwnd: Hwnd
    const userData: UserData
    /** Whether the crate is built with `std` (only then are panics caught and deferred). */
    const std: bool
    const handler: Handler
    var queue: seq<Event>
    var count: Option<nat>
    var panic: Option<Payload>
    /** The events the handler has been called with, in order. */
    var delivered: seq<Event>

    function State(): Dispatch
      reads this
    {
      Dispatch(queue, count, panic, delivered)
    }

    ghost predicate Valid()
      reads this
    {
      ValidDispatch(State()) && (!std ==> panic.None?)
    }

    /** `WindowData::new`. */
    constructor (hwnd: Hwnd, userData: UserData, std: bool, handler: Handler)
      ensures Valid() && State() == FRESH
      ensures this.hwnd == hwnd && this.userData == userData
      ensures this.std == std && this.handler == handler
    {
      this.hwnd := hwnd;
      this.userData := userData;
      this.std := std;
      this.handler := handler;
      queue := [];
      count := None;
      panic := None;
      delivered := [];
    }

    /** `push`: appends at the tail; the count, the panic slot and the handler log stay. */
    method Push(e: Event)
      requires Valid()
      modifies this
      ensures Valid()
      ensures State() == Pushed(old(State()), e)
      ensures queue == old(queue) + [e] && count == old(count) && panic == old(panic)
    {
      queue := queue + [e];
    }

    /** `process`: the `while let Some(event) = queue.pop_front()` loop. */
    method Process() returns (o: Outcome<()>)
      requires Valid()
      modifies this
      ensures Valid()
      ensures (State(), o) == Drained(old(State()), handler)
    {
      while queue != []
        invariant Drained(State(), handler) == Drained(old(State()), handler)
        invariant count == old(count) && panic == old(panic)
        decreases |queue|
      {
        var event := queue[0];
        queue := queue[1..];
        var r := handler(|delivered|);
        delivered := delivered + [event];
        if r.Some? {
          o := Panicked(r.value);
          return;
        }
      }
      o := Returned(());
    }

    /** `begin`: opens a scope (corrected: a failed increment leaves the count alone). */
    method Begin() returns (o: Outcome<()>)
      requires Valid()
      modifies this
      ensures Valid()
      ensures (State(), o) == Begun(old(State()))
    {
      match count {
        case None =>
          count := Some(1);
        case Some(n) =>
          if n + 1 > U32_MAX {
            o := Panicked(BEGIN_OVERFLOW_MSG);
            return;
          }
          count := Some(n + 1);
      }
      o := Returned(());
    }

    /** Dropping the guard `begin` returned. */
    method Release() returns (o: Outcome<()>)
      requires Valid()
      modifies this
      ensures Valid()
      ensures (State(), o) == Released(old(State()), handler)
    {
      var current: nat;
      match count {
        case None =>
          o := Panicked(NOT_SET_MSG);
          return;
        case Some(n) =>
          current := n;
      }
      if current - 1 == 0 {
        count := None;
        o := Process();
      } else {
        count := Some(current - 1);
        o := Returned(());
      }
    }

    /** `catch_panic(f)`, once `f` has ended with `f`. */
    method CatchPanic(f: Outcome<()>) returns (r: Outcome<()>)
      requires Valid()
      modifies this
      ensures Valid()
      ensures (panic, r) == Caught(old(panic), f, std)
      ensures queue == old(queue) && count == old(count) && delivered == old(delivered)
    {
      if !std {
        r := f;
        return;
      }
      if f.Panicked? {
        var other := panic;
        panic := Some(f.payload);
        if other.Some? {
          r := AbortMacro(TWO_PANICS_MSG);
        } else {
          r := Returned(());
        }
      } else {
        r := f;
      }
    }

    /** `propagate_panic`. */
    method PropagatePanic() returns (r: Outcome<()>)
      requires Valid()
      modifies this
      ensures Valid()
      ensures (panic, r) == Propagated(old(panic), std)
      ensures queue == old(queue) && count == old(count) && delivered == old(delivered)
    {
      if std && panic.Some? {
        var p := panic.value;
        panic := None;
        r := Panicked(p);
      } else {
        r := Returned(());
      }
    }

    /**
     * What the window procedure does with an ordinary message for this window: the
     * `catch_panic` closure that opens a scope, queues `Created` for WM_CREATE and closes
     * the scope.
     */
    method OnMessage(msg: U32) returns (r: Outcome<()>)
      requires Valid()
      modifies this
      ensures Valid()
      ensures (State(), r) == Handled(old(State()), handler, msg, std)
    {
      var f: Outcome<()>;
      var b := Begin();
      if b.Returned? {
        if msg == WM_CREATE {
          Push(Created);
        }
        f := Release();
      } else {
        f := b;
      }
      r := CatchPanic(f);
    }
  }

  // ---------------------------------------------------------------------------------------
  // AsWindow::set_window_pos
  // ---------------------------------------------------------------------------------------

  const SWP_NOSIZE: bv32 := 0x0001
  const SWP_NOMOVE: bv32 := 0x0002
  const SWP_NOZORDER: bv32 := 0x0004
  /** Every bit `WindowPosFlags` can hold (DEFER_ERASE .. SHOW_WINDOW). */
  const WINDOW_POS_FLAG_BITS: bv32 := 0x27F8

  type WindowPosFlags = b: bv32 | b & !WINDOW_POS_FLAG_BITS == 0

  const HWND_TOP: Hwnd := 0
  const HWND_BOTTOM: Hwnd := 1
  const HWND_TOPMOST: Hwnd := -1
  const HWND_NOTOPMOST: Hwnd := -2

  type I32 = x: int | -0x8000_0000 <= x < 0x8000_0000

  datatype InsertAfter = AfterWindow(window: Hwnd) | Bottom | Top | TopMost | NoTopMost
  datatype Point = Point(x: I32, y: I32)
  datatype Size = Size(width: I32, height: I32)

  /** The arguments handed to the native `SetWindowPos`. */
  datatype SetWindowPosCall = SetWindowPosCall(
    hwnd: Hwnd, insertAfter: Hwnd, x: I32, y: I32, cx: I32, cy: I32, flags: bv32)

  /** The `HWND` an explicit insert-after choice stands for. */
  function InsertAfterHandle(a: InsertAfter): Hwnd
  {
    match a
    case AfterWindow(w) => w
    case Bottom => HWND_BOTTOM
    case Top => HWND_TOP
    case TopMost => HWND_TOPMOST
    case NoTopMost => HWND_NOTOPMOST
  }

  /** The flags `set_window_pos` hands over: the caller's, plus one per argument left out. */
  function PosFlags(flags: WindowPosFlags, noZOrder: bool, noMove: bool, noSize: bool): bv32
  {
    flags
    | (if noZOrder then SWP_NOZORDER else 0)
    | (if noMove then SWP_NOMOVE else 0)
    | (if noSize then SWP_NOSIZE else 0)
  }

  /** The caller's flags are all kept, and nothing but the three "leave unchanged" flags is added. */
  lemma PosFlagsBits(flags: WindowPosFlags, noZOrder: bool, noMove: bool, noSize: bool)
    ensures PosFlags(flags, noZOrder, noMove, noSize) & flags == flags
    ensures PosFlags(flags, noZOrder, noMove, noSize)
      & !(flags | SWP_NOZORDER | SWP_NOMOVE | SWP_NOSIZE) == 0
  {
  }

  /**
   * Each "leave unchanged" flag is set exactly when its argument was left out (the caller
   * cannot set them: `WindowPosFlags` holds none of them).
   */
  lemma PosFlagsMarks(flags: WindowPosFlags, noZOrder: bool, noMove: bool, noSize: bool)
    ensures (PosFlags(flags, noZOrder, noMove, noSize) & SWP_NOZORDER != 0) <==> noZOrder
    ensures (PosFlags(flags, noZOrder, noMove, noSize) & SWP_NOMOVE != 0) <==> noMove
    ensures (PosFlags(flags, noZOrder, noMove, noSize) & SWP_NOSIZE != 0) <==> noSize
  {
    assert flags & 7 == 0;
  }

  /**
   * `set_window_pos`: each argument left out passes zeros and marks its "leave unchanged"
   * flag; each one given passes through. The flags handed over are then those of
   * `PosFlags` (see `PosFlagsBits` and `PosFlagsMarks`). `succeeded` is what the native call reports.
   */
  method SetWindowPos(
    hwnd: Hwnd, insertAfter: Option<InsertAfter>, position: Option<Point>, size: Option<Size>,
    flags: WindowPosFlags, succeeded: bool, sys: SystemError)
    returns (call: SetWindowPosCall, r: Result<(), Error>)
    ensures call.hwnd == hwnd
    ensures call.flags == PosFlags(flags, insertAfter.None?, position.None?, size.None?)
    ensures call.insertAfter == if insertAfter.None? then 0 else InsertAfterHandle(insertAfter.value)
    ensures (call.x, call.y) == if position.None? then (0, 0) else (position.value.x, position.value.y)
    ensures (call.cx, call.cy) == if size.None? then (0, 0) else (size.value.width, size.value.height)
    ensures r == if succeeded then Ok(()) else Err(LastErrorOf("SetWindowPos", sys))
  {
    var noZOrder, noMove, noSize := false, false, false;
    var after: Hwnd;
    match insertAfter {
      case Some(a) => after := InsertAfterHandle(a);
      case None =>
        noZOrder := true;
        after := 0;
    }
    var x: I32, y: I32;
    match position {
      case Some(p) => x, y := p.x, p.y;
      case None =>
        noMove := true;
        x, y := 0, 0;
    }
    var width: I32, height: I32;
    match size {
      case Some(s) => width, height := s.width, s.height;
      case None =>
        noSize := true;
        width, height := 0, 0;
    }
    var bits := PosFlags(flags, noZOrder, noMove, noSize);
    call := SetWindowPosCall(hwnd, after, x, y, width, height, bits);
    if succeeded {
      r := Ok(());
    } else {
      r := Err(LastErrorOf("SetWindowPos", sys));
    }
  }
}

=== FILE: wndproc.dfy ===
/**
 * The window procedure (src/wndproc.rs) and window creation (`Client::create_window`,
 * src/window.rs): how each message reaching a porcupine window is answered, how a
 * window's data is installed and torn down, and how a panic raised by the user's handler
 * during creation reaches the thread that asked for the window.
 *
 * The effect of one message is specified on values (`World`, `HandleMessage`); the
 * `Desktop` class holds the same state as objects and its methods are proved against it.
 */
module WndProc {
  import opened Wrappers
  import opened Lib
  import opened Native
  import opened Clients
  import opened Window

  /** The payload of the debug assertion on a null `lpCreateParams`. */
  const NULL_PARAMS_MSG: string :=
    "assertion failed: unsafe { !(*create_struct).lpCreateParams.is_null() }"
  /** The payload of `debug_assert_ne!(user_data, 0)`. */
  const NO_DATA_MSG: string := "assertion `left != right` failed\n  left: 0\n right: 0"
  /** The payload of `debug_assert_ne!(ptr, 0)` on the class data pointer. */
  const NULL_CLASS_MSG: string := NO_DATA_MSG
  /** What freeing the window data behind a null `GWLP_USERDATA` amounts to. */
  const NULL_DATA_FREE: string := "Box::from_raw on a null window data pointer"
  /** What calling the panic hook behind a null `GWLP_USERDATA` amounts to. */
  const NULL_DATA_CALL: string := "call through a null window data pointer"
  /** What freeing the user data box a second time amounts to. */
  const DOUBLE_FREE: string := "Box::from_raw on user data already freed by WM_NCDESTROY"

  /** A window's `GWLP_USERDATA`: its user data and its dispatch state. */
  datatype Slot = Slot(userData: UserData, dispatch: Dispatch)

  /**
   * Everything one window class's procedure reads or writes: the handles `IsWindow`
   * accepts, the windows whose user data is set, the client's window count and the
   * thread's message queue.
   */
  datatype World = World(
    live: set<Hwnd>,
    windows: map<Hwnd, Slot>,
    count: Option<nat>,
    thread: QueueView)

  ghost predicate ValidWorld(w: World, std: bool)
  {
    && ValidCount(w.count)
    && 0 !in w.live
    && w.windows.Keys <= w.live
    && forall hw :: hw in w.windows ==>
         ValidDispatch(w.windows[hw].dispatch) && (!std ==> w.windows[hw].dispatch.panic.None?)
  }

  // ---------------------------------------------------------------------------------------
  // Specification
  // ---------------------------------------------------------------------------------------

  /**
   * WM_NCDESTROY on a window with data: the data is freed, then the window count is
   * lowered (posting the quit request when it reaches zero).
   */
  function Freed(w: World, hwnd: Hwnd): (r: (World, Outcome<()>))
    requires ValidCount(w.count) && hwnd in w.windows
    ensures ValidCount(r.0.count) && r.0.live == w.live
    ensures r.0.windows == w.windows - {hwnd}
    ensures r.1.Returned? <==> w.count.Some?
  {
    var w1 := w.(windows := w.windows - {hwnd});
    var dec := Decremented(w.count);
    if dec.Returned? then
      (w1.(count := dec.value.count,
           thread := if dec.value.postsQuit then w.thread.(quitPosted := true) else w.thread),
       Returned(()))
    else (w1, WithValue(dec, ()))
  }

  /** Any other message for a window with data: `Handled` on that window's state. */
  function HandledAt(w: World, hwnd: Hwnd, msg: U32, h: Handler, std: bool): (r: (World, Outcome<()>))
    requires ValidWorld(w, std) && hwnd in w.windows
    ensures ValidWorld(r.0, std) && r.0.live == w.live
    ensures r.0.count == w.count && r.0.thread == w.thread
    ensures r.0.windows
      == w.windows[hwnd := w.windows[hwnd].(dispatch := Handled(w.windows[hwnd].dispatch, h, msg, std).0)]
    ensures r.1 == Handled(w.windows[hwnd].dispatch, h, msg, std).1
  {
    var slot := w.windows[hwnd];
    var (s, o) := Handled(slot.dispatch, h, msg, std);
    (w.(windows := w.windows[hwnd := slot.(dispatch := s)]), o)
  }

  /**
   * `handle_window_message` on a message for `hwnd`: the new world and how the call ends;
   * a normal return means the answer is the default procedure's.
   */
  function HandleMessage(
    w: World, hwnd: Hwnd, msg: U32, createParams: Option<UserData>, h: Handler, std: bool)
    : (r: (World, Outcome<()>))
    requires ValidWorld(w, std)
    ensures ValidWorld(r.0, std)
    ensures r.0.live == w.live
    ensures r.0.windows - {hwnd} == w.windows - {hwnd}
    ensures msg != WM_NCDESTROY ==> r.0.count == w.count && r.0.thread == w.thread
    ensures msg == WM_NCDESTROY ==> hwnd !in r.0.windows
  {
    if hwnd == 0 || hwnd !in w.live then (w, Returned(()))
    else if msg == WM_NCCREATE then
      match createParams
      case None => (w, Panicked(NULL_PARAMS_MSG))
      case Some(u) => (w.(windows := w.windows[hwnd := Slot(u, FRESH)]), Returned(()))
    else if msg == WM_NCDESTROY then
      if hwnd !in w.windows then (w, Undefined(NULL_DATA_FREE))
      else
        var r := Freed(w, hwnd);
        assert forall hw :: hw in r.0.windows ==> hw in w.windows && r.0.windows[hw] == w.windows[hw];
        r
    else if hwnd !in w.windows then
      if msg == WM_GETMINMAXINFO then (w, Returned(())) else (w, Panicked(NO_DATA_MSG))
    else HandledAt(w, hwnd, msg, h, std)
  }

  /**
   * `DestroyWindow` on `hwnd`, which dropping a `Window` calls (src/window.rs:164-171): the
   * system sends WM_DESTROY and then WM_NCDESTROY through the window procedure (so an
   * escaping panic aborts), and afterwards `IsWindow` rejects the handle.
   */
  function Destroyed(w: World, hwnd: Hwnd, h: Handler, std: bool): (r: (World, Outcome<()>))
    requires ValidWorld(w, std)
    ensures ValidWorld(r.0, std) && r.0.live <= w.live
    ensures !r.1.Panicked?
    ensures r.1.Returned? ==> r.0.live == w.live - {hwnd} && r.0.windows == w.windows - {hwnd}
  {
    var (w1, o1) := HandleMessage(w, hwnd, WM_DESTROY, None, h, std);
    if !o1.Returned? then (w1, AbortOnPanic(o1))
    else
      var (w2, o2) := HandleMessage(w1, hwnd, WM_NCDESTROY, None, h, std);
      (w2.(live := w2.live - {hwnd}), AbortOnPanic(o2))
  }

  /**
   * The messages the system sends to a new window before `CreateWindowExA` returns:
   * WM_GETMINMAXINFO, WM_NCCREATE (carrying the user data), and then WM_CREATE, or
   * WM_NCDESTROY when the system gives up on the window after WM_NCCREATE (`abandoned`).
   * Each goes through the window procedure (so an escaping panic aborts); a call that does
   * not return normally ends the sequence.
   */
  function CreationMessages(w: World, hwnd: Hwnd, u: UserData, h: Handler, std: bool, abandoned: bool)
    : (r: (World, Outcome<()>))
    requires ValidWorld(w, std)
    ensures ValidWorld(r.0, std) && r.0.live == w.live
    ensures !r.1.Panicked?
    ensures abandoned && r.1.Returned? ==> hwnd !in r.0.windows
  {
    var (w1, o1) := HandleMessage(w, hwnd, WM_GETMINMAXINFO, None, h, std);
    if !o1.Returned? then (w1, AbortOnPanic(o1))
    else
      var (w2, o2) := HandleMessage(w1, hwnd, WM_NCCREATE, Some(u), h, std);
      if !o2.Returned? then (w2, AbortOnPanic(o2))
      else
        var (w3, o3) := HandleMessage(w2, hwnd, if abandoned then WM_NCDESTROY else WM_CREATE, None, h, std);
        (w3, AbortOnPanic(o3))
  }

  /**
   * The end of `create_window`: the window count is raised (aborting on overflow), the
   * `Window` is built, then a panic parked in the window's data during creation is
   * re-raised; unwinding drops that `Window`, which destroys the window.
   */
  function Finished(w: World, hwnd: Hwnd, h: Handler, std: bool): (r: (World, Outcome<Result<Hwnd, Error>>))
    requires ValidWorld(w, std)
    ensures ValidWorld(r.0, std)
    ensures r.1.Returned? ==> r.1.value == Ok(hwnd)
  {
    match Incremented(w.count)
    case Returned(c) =>
      var w1 := w.(count := c);
      if hwnd !in w1.windows then (w1, Undefined(NULL_DATA_CALL))
      else
        var slot := w1.windows[hwnd];
        var (p, o) := Propagated(slot.dispatch.panic, std);
        var w2 := w1.(windows := w1.windows[hwnd := slot.(dispatch := slot.dispatch.(panic := p))]);
        if o.Panicked? then
          var (w3, d) := Destroyed(w2, hwnd, h, std);
          (w3, if d.Returned? then Panicked(o.payload) else WithValue(d, Ok(hwnd)))
        else (w2, WithValue(o, Ok(hwnd)))
    case other => (w, WithValue(other, Ok(hwnd)))
  }

  /**
   * `create_window`, given the handle the system gives the new window (0 when
   * `CreateWindowExA` fails before sending any message) and whether the system abandons
   * the window after WM_NCCREATE (so that `CreateWindowExA` returns 0 after all): on 0,
   * the last error; else the creation-time messages, then `Finished`. An abandoned window
   * has had its user data freed by WM_NCDESTROY before `create_window` frees it again.
   */
  function CreateOutcome(w: World, hwnd: Hwnd, abandoned: bool, u: UserData, h: Handler, std: bool, sys: SystemError)
    : (r: (World, Outcome<Result<Hwnd, Error>>))
    requires ValidWorld(w, std) && hwnd !in w.live
    ensures ValidWorld(r.0, std)
    ensures hwnd == 0 ==> r == (w, Returned(Err(LastErrorOf("CreateWindowEx", sys))))
    ensures hwnd != 0 && r.1.Returned? ==> r.1.value == Ok(hwnd) && !abandoned
  {
    if hwnd == 0 then (w, Returned(Err(LastErrorOf("CreateWindowEx", sys))))
    else
      var (w3, o) := CreationMessages(w.(live := w.live + {hwnd}), hwnd, u, h, std, abandoned);
      if !o.Returned? then (w3, WithValue(o, Ok(hwnd)))
      else if abandoned then (w3.(live := w3.live - {hwnd}), Undefined(DOUBLE_FREE))
      else Finished(w3, hwnd, h, std)
  }

  // ---------------------------------------------------------------------------------------
  // Properties
  // ---------------------------------------------------------------------------------------

  /**
   * An outermost WM_CREATE hands `Created` to the handler right away, after any events
   * already queued, and leaves the window outside every scope.
   */
  lemma OutermostCreateDelivers(s: Dispatch, h: Handler)
    requires ValidDispatch(s) && s.count.None?
    requires forall j :: |s.delivered| <= j <= |s.delivered| + |s.queue| ==> h(j).None?
    ensures Dispatched(s, h, WM_CREATE)
      == (s.(queue := [], delivered := s.delivered + s.queue + [Created]), Returned(()))
  {
    var s1 := s.(count := Some(1));
    var q := Pushed(s1, Created).(count := None);
    DrainedDeliversAll(q, h);
    assert q.delivered + q.queue == s.delivered + s.queue + [Created];
    assert q.(queue := [], delivered := q.delivered + q.queue)
      == s.(queue := [], delivered := s.delivered + s.queue + [Created]);
  }

  /**
   * A WM_CREATE arriving while the window is already inside a scope (a re-entrant call)
   * only queues `Created`: nothing is handed to the handler and the count is as before.
   */
  lemma ReentrantCreateIsDeferred(s: Dispatch, h: Handler)
    requires ValidDispatch(s) && s.count.Some? && s.count.value < U32_MAX
    ensures Dispatched(s, h, WM_CREATE) == (s.(queue := s.queue + [Created]), Returned(()))
  {
  }

  /**
   * A handler panic while an outermost message processes the queue: with `std` it is
   * parked in the slot, the events after it stay queued, and the procedure returns
   * normally; without `std` it escapes the procedure. When no handler call panics, the
   * queue (with `Created` last for WM_CREATE) is delivered in full.
   */
  lemma HandlerPanicIsParked(s: Dispatch, h: Handler, msg: U32, std: bool)
    requires ValidDispatch(s) && s.count.None? && s.panic.None?
    ensures
      var q := s.queue + (if msg == WM_CREATE then [Created] else []);
      var k := FirstPanic(h, |s.delivered|, |q|);
      && (k < |q| ==>
            && Handled(s, h, msg, true)
               == (s.(queue := q[k + 1..], delivered := s.delivered + q[..k + 1], panic := h(|s.delivered| + k)),
                   Returned(()))
            && Handled(s, h, msg, false).1 == Panicked(h(|s.delivered| + k).value))
      && (k == |q| ==> Handled(s, h, msg, std) == (s.(queue := [], delivered := s.delivered + q), Returned(())))
  {
    var q := s.queue + (if msg == WM_CREATE then [Created] else []);
    OutermostDispatch(s, h, msg);
    DrainedHandsOverInOrder(s.(queue := q), h, FirstPanic(h, |s.delivered|, |q|));
  }

  /** Messages for the null handle or a handle `IsWindow` rejects change nothing. */
  lemma ForeignHandlesIgnored(w: World, hwnd: Hwnd, msg: U32, c: Option<UserData>, h: Handler, std: bool)
    requires ValidWorld(w, std) && (hwnd == 0 || hwnd !in w.live)
    ensures HandleMessage(w, hwnd, msg, c, h, std) == (w, Returned(()))
  {
  }

  /**
   * WM_NCDESTROY frees the window's data and lowers the count; destroying the last window
   * posts the quit request.
   */
  lemma DestroyLastWindowQuits(w: World, hwnd: Hwnd, h: Handler, std: bool)
    requires ValidWorld(w, std) && hwnd != 0 && hwnd in w.windows && w.count == Some(1)
    ensures
      var r := HandleMessage(w, hwnd, WM_NCDESTROY, None, h, std);
      && r.1 == Returned(())
      && hwnd !in r.0.windows
      && r.0.count.None? && r.0.thread.quitPosted && r.0.thread.posted == w.thread.posted
  {
  }

  /**
   * `DestroyWindow` on a counted window outside every scope with nothing queued: the data
   * is gone, the count is one lower (posting the quit request when it was the last
   * window), and `IsWindow` rejects the handle.
   */
  lemma DestroyIdleWindow(w: World, hwnd: Hwnd, h: Handler, std: bool)
    requires ValidWorld(w, std) && hwnd != 0 && hwnd in w.windows && w.count.Some?
    requires w.windows[hwnd].dispatch.count.None? && w.windows[hwnd].dispatch.queue == []
    ensures
      var r := Destroyed(w, hwnd, h, std);
      && r.1 == Returned(())
      && r.0.live == w.live - {hwnd}
      && r.0.windows == w.windows - {hwnd}
      && CountOf(r.0.count) + 1 == CountOf(w.count)
      && r.0.thread.posted == w.thread.posted
      && (r.0.thread.quitPosted <==> w.count == Some(1) || w.thread.quitPosted)
  {
    var s := w.windows[hwnd].dispatch;
    OtherMessagesQueueNothing(s, h, WM_DESTROY);
    assert Handled(s, h, WM_DESTROY, std) == (s, Returned(()));
    var w1 := HandleMessage(w, hwnd, WM_DESTROY, None, h, std).0;
    assert w1.windows == w.windows[hwnd := w.windows[hwnd]];
  }

  /** A creation whose handler returns: the window exists, saw `Created`, and is counted. */
  lemma CreateWindowSucceeds(w: World, hwnd: Hwnd, u: UserData, h: Handler, std: bool, sys: SystemError)
    requires ValidWorld(w, std) && hwnd != 0 && hwnd !in w.live
    requires w.count != Some(U32_MAX) && h(0).None?
    ensures
      var r := CreateOutcome(w, hwnd, false, u, h, std, sys);
      && r.1 == Returned(Ok(hwnd))
      && r.0.live == w.live + {hwnd}
      && r.0.windows == w.windows[hwnd := Slot(u, Dispatch([], None, None, [Created]))]
      && r.0.count == Some(CountOf(w.count) + 1)
      && r.0.thread == w.thread
  {
    CreationMessagesOnFreshHandle(w, hwnd, u, h, std);
    FreshCreateHandled(h, std);
  }

  /**
   * With `std`, a panic of the handler during creation reaches the caller of
   * `create_window`; on the way, dropping the `Window` destroys the window, so the data is
   * gone, the count is back where it was, and the quit request is posted when this was the
   * only window.
   */
  lemma CreationPanicReachesCaller(w: World, hwnd: Hwnd, u: UserData, h: Handler, p: Payload, sys: SystemError)
    requires ValidWorld(w, true) && hwnd != 0 && hwnd !in w.live
    requires w.count != Some(U32_MAX) && h(0) == Some(p)
    ensures
      var r := CreateOutcome(w, hwnd, false, u, h, true, sys);
      && r.1 == Panicked(p)
      && r.0.live == w.live
      && r.0.windows == w.windows
      && r.0.count == w.count
      && r.0.thread.posted == w.thread.posted
      && (r.0.thread.quitPosted <==> w.count.None? || w.thread.quitPosted)
  {
    CreationPanicFinishes(w, hwnd, u, h, p, sys);
    CreationPanicParked(w, hwnd, u, h, p);
    CreatedWindowDestroyed(w, hwnd, u, h);
  }

  /** Destroying the window `create_window` has just counted undoes the creation. */
  lemma CreatedWindowDestroyed(w: World, hwnd: Hwnd, u: UserData, h: Handler)
    requires ValidWorld(w, true) && hwnd != 0 && hwnd !in w.live && w.count != Some(U32_MAX)
    ensures
      var w2 := w.(live := w.live + {hwnd}, windows := w.windows[hwnd := Slot(u, Dispatch([], None, None, [Created]))],
                   count := Some(CountOf(w.count) + 1));
      var d := Destroyed(w2, hwnd, h, true);
      && d.1 == Returned(())
      && d.0.live == w.live
      && d.0.windows == w.windows
      && d.0.count == w.count
      && d.0.thread.posted == w.thread.posted
      && (d.0.thread.quitPosted <==> w.count.None? || w.thread.quitPosted)
  {
    var w2 := w.(live := w.live + {hwnd}, windows := w.windows[hwnd := Slot(u, Dispatch([], None, None, [Created]))],
                 count := Some(CountOf(w.count) + 1));
    DestroyIdleWindow(w2, hwnd, h, true);
    assert w2.windows - {hwnd} == w.windows;
  }

  /**
   * With `std`, a panic of the handler during creation is parked, then taken out of the
   * slot by `create_window` once the window is counted, and the window is destroyed.
   */
  lemma CreationPanicParked(w: World, hwnd: Hwnd, u: UserData, h: Handler, p: Payload)
    requires ValidWorld(w, true) && hwnd != 0 && hwnd !in w.live && w.count != Some(U32_MAX)
    ensures
      var w1 := w.(live := w.live + {hwnd}, windows := w.windows[hwnd := Slot(u, Dispatch([], None, Some(p), [Created]))]);
      var w2 := w.(live := w.live + {hwnd}, windows := w.windows[hwnd := Slot(u, Dispatch([], None, None, [Created]))],
                   count := Some(CountOf(w.count) + 1));
      var d := Destroyed(w2, hwnd, h, true);
      Finished(w1, hwnd, h, true) == (d.0, if d.1.Returned? then Panicked(p) else WithValue(d.1, Ok(hwnd)))
  {
    var w1 := w.(live := w.live + {hwnd}, windows := w.windows[hwnd := Slot(u, Dispatch([], None, Some(p), [Created]))]);
    ParkedPanicDestroys(w1, hwnd, h, p);
    var slot := w1.windows[hwnd];
    assert w1.windows[hwnd := slot.(dispatch := slot.dispatch.(panic := None))]
      == w.windows[hwnd := Slot(u, Dispatch([], None, None, [Created]))];
  }

  /** With `std`, creation-time messages park the handler's panic and then `create_window` finishes. */
  lemma CreationPanicFinishes(w: World, hwnd: Hwnd, u: UserData, h: Handler, p: Payload, sys: SystemError)
    requires ValidWorld(w, true) && hwnd != 0 && hwnd !in w.live && h(0) == Some(p)
    ensures
      var w1 := w.(live := w.live + {hwnd}, windows := w.windows[hwnd := Slot(u, Dispatch([], None, Some(p), [Created]))]);
      CreateOutcome(w, hwnd, false, u, h, true, sys) == Finished(w1, hwnd, h, true)
  {
    CreationMessagesOnFreshHandle(w, hwnd, u, h, true);
    FreshCreateHandled(h, true);
  }

  /**
   * `Finished` on a window with a parked panic: the panic is taken out of the slot and the
   * window destroyed; the panic reaches the caller when the destruction returns.
   */
  lemma ParkedPanicDestroys(w: World, hwnd: Hwnd, h: Handler, p: Payload)
    requires ValidWorld(w, true) && hwnd in w.windows && w.count != Some(U32_MAX)
    requires w.windows[hwnd].dispatch.panic == Some(p)
    ensures
      var slot := w.windows[hwnd];
      var w2 := w.(windows := w.windows[hwnd := slot.(dispatch := slot.dispatch.(panic := None))],
                   count := Some(CountOf(w.count) + 1));
      var d := Destroyed(w2, hwnd, h, true);
      Finished(w, hwnd, h, true) == (d.0, if d.1.Returned? then Panicked(p) else WithValue(d.1, Ok(hwnd)))
  {
  }

  /** Without `std`, a panic of the handler during creation aborts, before the window is counted. */
  lemma CreationPanicAbortsWithoutStd(w: World, hwnd: Hwnd, u: UserData, h: Handler, p: Payload, sys: SystemError)
    requires ValidWorld(w, false) && hwnd != 0 && hwnd !in w.live
    requires h(0) == Some(p)
    ensures CreateOutcome(w, hwnd, false, u, h, false, sys).1.Aborted?
    ensures CreateOutcome(w, hwnd, false, u, h, false, sys).0.count == w.count
  {
    CreationMessagesOnFreshHandle(w, hwnd, u, h, false);
    FreshCreateHandled(h, false);
  }

  /**
   * A window the system abandons after WM_NCCREATE: WM_NCDESTROY frees its data and lowers
   * a count `create_window` never raised; with no other window counted that is
   * `unreachable!`, which aborts, and otherwise `create_window` frees the user data a
   * second time. `create_window` never gets to return the error.
   */
  lemma AbandonedCreationIsFatal(w: World, hwnd: Hwnd, u: UserData, h: Handler, std: bool, sys: SystemError)
    requires ValidWorld(w, std) && hwnd != 0 && hwnd !in w.live
    ensures
      var r := CreateOutcome(w, hwnd, true, u, h, std, sys);
      && r.0.windows == w.windows
      && (w.count.None? ==> r.1 == Aborted(PANIC_ABORT_MSG))
      && (w.count.Some? ==> r.1 == Undefined(DOUBLE_FREE) && CountOf(r.0.count) + 1 == CountOf(w.count))
  {
    CreateSteps(w, hwnd, u, h, std);
    var w2 := w.(live := w.live + {hwnd}, windows := w.windows[hwnd := Slot(u, FRESH)]);
    assert w2.windows - {hwnd} == w.windows;
  }

  /** WM_CREATE on freshly installed window data: `Created` is handed over at once. */
  lemma FreshCreateHandled(h: Handler, std: bool)
    ensures h(0).None? ==>
      Handled(FRESH, h, WM_CREATE, std) == (Dispatch([], None, None, [Created]), Returned(()))
    ensures h(0).Some? && std ==>
      Handled(FRESH, h, WM_CREATE, std) == (Dispatch([], None, h(0), [Created]), Returned(()))
    ensures h(0).Some? && !std ==>
      Handled(FRESH, h, WM_CREATE, std) == (Dispatch([], None, None, [Created]), Panicked(h(0).value))
  {
    var s0 := Dispatch([], Some(1), None, []);
    var s1 := Dispatch([Created], Some(1), None, []);
    assert Begun(FRESH) == (s0, Returned(()));
    assert Pushed(s0, Created) == s1 by {
      assert [] + [Created] == [Created];
    }
    assert Dispatched(FRESH, h, WM_CREATE) == Released(s1, h);
    var q := Dispatch([Created], None, None, []);
    var next := Dispatch([], None, None, [Created]);
    assert q.queue[1..] == [] && q.delivered + [q.queue[0]] == [Created];
    assert Released(s1, h) == Drained(q, h);
    if h(0).None? {
      assert Drained(q, h) == Drained(next, h);
    } else {
      assert Drained(q, h) == (next, Panicked(h(0).value));
    }
  }

  /** The creation-time messages for a fresh handle install the data and run WM_CREATE on it. */
  lemma CreationMessagesOnFreshHandle(w: World, hwnd: Hwnd, u: UserData, h: Handler, std: bool)
    requires ValidWorld(w, std) && hwnd != 0 && hwnd !in w.live
    ensures CreationMessages(w.(live := w.live + {hwnd}), hwnd, u, h, std, false)
      == (w.(live := w.live + {hwnd}, windows := w.windows[hwnd := Slot(u, Handled(FRESH, h, WM_CREATE, std).0)]),
          AbortOnPanic(Handled(FRESH, h, WM_CREATE, std).1))
  {
    CreateSteps(w, hwnd, u, h, std);
  }

  /** The creation-time messages, one by one, for a fresh handle. */
  lemma CreateSteps(w: World, hwnd: Hwnd, u: UserData, h: Handler, std: bool)
    requires ValidWorld(w, std) && hwnd != 0 && hwnd !in w.live
    ensures
      var w0 := w.(live := w.live + {hwnd});
      var w2 := w0.(windows := w.windows[hwnd := Slot(u, FRESH)]);
      && HandleMessage(w0, hwnd, WM_GETMINMAXINFO, None, h, std) == (w0, Returned(()))
      && HandleMessage(w0, hwnd, WM_NCCREATE, Some(u), h, std) == (w2, Returned(()))
      && HandleMessage(w2, hwnd, WM_CREATE, None, h, std)
         == (w2.(windows := w.windows[hwnd := Slot(u, Handled(FRESH, h, WM_CREATE, std).0)]),
             Handled(FRESH, h, WM_CREATE, std).1)
  {
    assert hwnd !in w.windows;
    var w0 := w.(live := w.live + {hwnd});
    var w2 := w0.(windows := w.windows[hwnd := Slot(u, FRESH)]);
    assert w2.windows[hwnd := Slot(u, Handled(FRESH, h, WM_CREATE, std).0)]
      == w.windows[hwnd := Slot(u, Handled(FRESH, h, WM_CREATE, std).0)];
  }

  /** The window procedure's answer is dropped by callers that only look at how it ended. */
  lemma AbortOnPanicDropsAnswer(x: Outcome<()>, v: LResult)
    ensures WithValue(AbortOnPanic(WithValue(x, v)), ()) == AbortOnPanic(x)
  {
    match x
    case Returned(u) =>
      assert u == ();
    case Panicked(p) =>
      assert AbortOnPanic(WithValue(x, v)) == Aborted(PANIC_ABORT_MSG);
    case Aborted(_) =>
    case Undefined(_) =>
  }

  // ---------------------------------------------------------------------------------------
  // The procedure over live objects
  // ---------------------------------------------------------------------------------------

  /**
   * The windows of one window class as its procedure sees them: the class's client and
   * handler (`ClassData`), whether panics can be caught (`std`), the handles `IsWindow`
   * accepts, each window's `GWLP_USERDATA`, and the default procedures' answers.
   */
  class Desktop {
    var live: set<Hwnd>
    var slots: map<Hwnd, WindowData>
    const client: Client
    const handler: Handler
    const std: bool
    /** `DefSubclassProc` (true) or `DefWindowProcA` (false) on a message. */
    const defaultProc: (bool, Msg) -> LResult

    ghost predicate Valid()
      reads this, client, slots.Values
    {
      && client.Valid()
      && 0 !in live
      && slots.Keys <= live
      && forall hw :: hw in slots ==>
           && slots[hw].hwnd == hw && slots[hw].handler == handler && slots[hw].std == std
           && slots[hw].Valid()
    }

    function Snapshot(): World
      reads this, client, client.thread, slots.Values
    {
      World(live,
            map hw | hw in slots :: Slot(slots[hw].userData, slots[hw].State()),
            client.windowCount,
            client.thread.View())
    }

    lemma ValidWorldOf()
      requires Valid()
      ensures ValidWorld(Snapshot(), std)
    {
    }

    constructor (client: Client, handler: Handler, std: bool, defaultProc: (bool, Msg) -> LResult, live: set<Hwnd>)
      requires client.Valid() && 0 !in live
      ensures Valid() && this.client == client && this.handler == handler && this.std == std
      ensures this.defaultProc == defaultProc
      ensures Snapshot() == World(live, map[], client.windowCount, client.thread.View())
    {
      this.client := client;
      this.handler := handler;
      this.std := std;
      this.defaultProc := defaultProc;
      this.live := live;
      slots := map[];
    }

    /** WM_NCCREATE: fresh `WindowData` is boxed and stored as the window's user data. */
    method InstallData(hwnd: Hwnd, u: UserData)
      requires Valid() && hwnd in live
      modifies this
      ensures Valid() && live == old(live)
      ensures hwnd in slots && fresh(slots[hwnd])
      ensures forall d :: d in slots.Values ==> d in old(slots.Values) || fresh(d)
      ensures Snapshot() == old(Snapshot()).(windows := old(Snapshot()).windows[hwnd := Slot(u, FRESH)])
    {
      ghost var before := Snapshot();
      var data := new WindowData(hwnd, u, std, handler);
      slots := slots[hwnd := data];
      ghost var ws := Snapshot().windows;
      forall hw | hw in ws
        ensures ws[hw] == before.windows[hwnd := Slot(u, FRESH)][hw]
      {
        if hw != hwnd {
          assert slots[hw] == old(slots[hw]) && slots[hw].State() == old(slots[hw].State());
        }
      }
      assert ws == before.windows[hwnd := Slot(u, FRESH)];
    }

    /** WM_NCDESTROY on a window with data: frees it and lowers the window count. */
    method FreeData(hwnd: Hwnd) returns (d: Outcome<()>)
      requires Valid() && hwnd in slots
      modifies this, client, client.thread
      ensures Valid() && live == old(live)
      ensures forall x :: x in slots.Values ==> x in old(slots.Values)
      ensures (Snapshot(), d) == Freed(old(Snapshot()), hwnd)
    {
      ghost var before := Snapshot();
      slots := slots - {hwnd};
      assert Snapshot().windows == before.windows - {hwnd};
      ghost var between := Snapshot();
      d := client.DecrementWindowCount();
      assert Snapshot().windows == between.windows;
    }

    /** Any other message for a window with data: the `catch_panic` closure on its data. */
    method DispatchTo(hwnd: Hwnd, msg: U32) returns (r: Outcome<()>)
      requires Valid() && hwnd in slots
      modifies slots[hwnd]
      ensures Valid()
      ensures (Snapshot(), r) == HandledAt(old(Snapshot()), hwnd, msg, handler, std)
    {
      ghost var before := Snapshot();
      var data := slots[hwnd];
      assert forall hw :: hw in slots && hw != hwnd ==> slots[hw] != data;
      r := data.OnMessage(msg);
      assert forall hw :: hw in slots && hw != hwnd ==> Snapshot().windows[hw] == before.windows[hw];
      assert Snapshot().windows == before.windows[hwnd := Slot(data.userData, data.State())];
    }

    /** `handle_window_message`. `createParams` is `lpCreateParams` of WM_NCCREATE's `lParam`. */
    method HandleWindowMessage(
      hwnd: Hwnd, msg: U32, wParam: Usize, lParam: Isize, createParams: Option<UserData>,
      isSubclass: bool)
      returns (o: Outcome<LResult>)
      requires Valid()
      modifies this, client, client.thread, slots.Values
      ensures Valid() && live == old(live)
      ensures forall d :: d in slots.Values ==> d in old(slots.Values) || fresh(d)
      ensures Snapshot() == HandleMessage(old(Snapshot()), hwnd, msg, createParams, handler, std).0
      ensures o == WithValue(HandleMessage(old(Snapshot()), hwnd, msg, createParams, handler, std).1,
                             defaultProc(isSubclass, Msg(hwnd, msg, wParam, lParam)))
    {
      ValidWorldOf();
      var answer := defaultProc(isSubclass, Msg(hwnd, msg, wParam, lParam));
      if hwnd == 0 || hwnd !in live {
        o := Returned(answer);
      } else if msg == WM_NCCREATE {
        if createParams.None? {
          o := Panicked(NULL_PARAMS_MSG);
        } else {
          InstallData(hwnd, createParams.value);
          o := Returned(answer);
        }
      } else if msg == WM_NCDESTROY {
        if hwnd !in slots {
          o := Undefined(NULL_DATA_FREE);
        } else {
          var d := FreeData(hwnd);
          o := WithValue(d, answer);
        }
      } else if hwnd !in slots {
        if msg == WM_GETMINMAXINFO {
          o := Returned(answer);
        } else {
          o := Panicked(NO_DATA_MSG);
        }
      } else {
        var r := DispatchTo(hwnd, msg);
        o := WithValue(r, answer);
      }
    }

    /**
     * `porcupine_window_procedure`: the class data comes from `GetClassLongPtrA`, which
     * gives 0 for the null handle or a handle that is no window, and the debug assertion
     * on it then panics; otherwise the handling above. Any escaping panic aborts.
     */
    method WindowProcedure(hwnd: Hwnd, msg: U32, wParam: Usize, lParam: Isize, createParams: Option<UserData>)
      returns (o: Outcome<LResult>)
      requires Valid()
      modifies this, client, client.thread, slots.Values
      ensures Valid() && live == old(live)
      ensures forall d :: d in slots.Values ==> d in old(slots.Values) || fresh(d)
      ensures !o.Panicked?
      ensures Snapshot() == HandleMessage(old(Snapshot()), hwnd, msg, createParams, handler, std).0
      ensures hwnd !in old(live) ==> o == Aborted(PANIC_ABORT_MSG)
      ensures hwnd in old(live) ==>
        o == AbortOnPanic(WithValue(HandleMessage(old(Snapshot()), hwnd, msg, createParams, handler, std).1,
                                    defaultProc(false, Msg(hwnd, msg, wParam, lParam))))
    {
      if hwnd !in live {
        // `debug_assert_ne!(ptr, 0)` on the class data pointer.
        o := AbortOnPanic(Panicked(NULL_CLASS_MSG));
        return;
      }
      var inner := HandleWindowMessage(hwnd, msg, wParam, lParam, createParams, false);
      o := AbortOnPanic(inner);
    }

    /** `porcupine_subclass_procedure`: as above, with `DefSubclassProc` as the default. */
    method SubclassProcedure(hwnd: Hwnd, msg: U32, wParam: Usize, lParam: Isize, createParams: Option<UserData>)
      returns (o: Outcome<LResult>)
      requires Valid()
      modifies this, client, client.thread, slots.Values
      ensures Valid() && live == old(live)
      ensures forall d :: d in slots.Values ==> d in old(slots.Values) || fresh(d)
      ensures !o.Panicked?
      ensures Snapshot() == HandleMessage(old(Snapshot()), hwnd, msg, createParams, handler, std).0
      ensures o == AbortOnPanic(WithValue(HandleMessage(old(Snapshot()), hwnd, msg, createParams, handler, std).1,
                                          defaultProc(true, Msg(hwnd, msg, wParam, lParam))))
    {
      var inner := HandleWindowMessage(hwnd, msg, wParam, lParam, createParams, true);
      o := AbortOnPanic(inner);
    }

    /** The creation-time messages, as the system delivers them to the procedure. */
    method SendCreationMessages(hwnd: Hwnd, u: UserData, abandoned: bool) returns (o: Outcome<()>)
      requires Valid() && hwnd in live
      modifies this, client, client.thread, slots.Values
      ensures Valid() && live == old(live)
      ensures forall d :: d in slots.Values ==> d in old(slots.Values) || fresh(d)
      ensures (Snapshot(), o) == CreationMessages(old(Snapshot()), hwnd, u, handler, std, abandoned)
    {
      ghost var w0 := Snapshot();
      ValidWorldOf();
      forall x: Outcome<()>, v: LResult
        ensures WithValue(AbortOnPanic(WithValue(x, v)), ()) == AbortOnPanic(x)
      {
        AbortOnPanicDropsAnswer(x, v);
      }
      ghost var r1 := HandleMessage(w0, hwnd, WM_GETMINMAXINFO, None, handler, std);
      var o1 := WindowProcedure(hwnd, WM_GETMINMAXINFO, 0, 0, None);
      assert Snapshot() == r1.0 && o1.Returned? == r1.1.Returned?;
      if !o1.Returned? {
        o := WithValue(o1, ());
        assert CreationMessages(w0, hwnd, u, handler, std, abandoned) == (r1.0, AbortOnPanic(r1.1));
        return;
      }
      ghost var r2 := HandleMessage(r1.0, hwnd, WM_NCCREATE, Some(u), handler, std);
      var o2 := WindowProcedure(hwnd, WM_NCCREATE, 0, 0, Some(u));
      assert Snapshot() == r2.0 && o2.Returned? == r2.1.Returned?;
      if !o2.Returned? {
        o := WithValue(o2, ());
        assert CreationMessages(w0, hwnd, u, handler, std, abandoned) == (r2.0, AbortOnPanic(r2.1));
        return;
      }
      var third := if abandoned then WM_NCDESTROY else WM_CREATE;
      ghost var r3 := HandleMessage(r2.0, hwnd, third, None, handler, std);
      var o3 := WindowProcedure(hwnd, third, 0, 0, None);
      assert Snapshot() == r3.0;
      o := WithValue(o3, ());
      assert CreationMessages(w0, hwnd, u, handler, std, abandoned) == (r3.0, AbortOnPanic(r3.1));
    }

    /** `propagate_panic` on the data of window `hwnd`. */
    method PropagateAt(hwnd: Hwnd) returns (r: Outcome<()>)
      requires Valid() && hwnd in slots
      modifies slots[hwnd]
      ensures Valid()
      ensures var slot := old(Snapshot()).windows[hwnd];
              var (p, o) := Propagated(slot.dispatch.panic, std);
              && Snapshot() == old(Snapshot()).(windows := old(Snapshot()).windows[hwnd := slot.(dispatch := slot.dispatch.(panic := p))])
              && r == o
    {
      ghost var before := Snapshot();
      var data := slots[hwnd];
      assert forall hw :: hw in slots && hw != hwnd ==> slots[hw] != data;
      r := data.PropagatePanic();
      assert forall hw :: hw in slots && hw != hwnd ==> Snapshot().windows[hw] == before.windows[hw];
      assert Snapshot().windows == before.windows[hwnd := Slot(data.userData, data.State())];
    }

    /** A new window: `IsWindow` accepts its handle. */
    method Admit(hwnd: Hwnd)
      requires Valid() && hwnd != 0
      modifies this
      ensures Valid() && slots == old(slots)
      ensures Snapshot() == old(Snapshot()).(live := old(live) + {hwnd})
    {
      live := live + {hwnd};
    }

    /** After destruction, `IsWindow` rejects the handle. */
    method Retire(hwnd: Hwnd)
      requires Valid() && hwnd !in slots
      modifies this
      ensures Valid() && slots == old(slots)
      ensures Snapshot() == old(Snapshot()).(live := old(live) - {hwnd})
    {
      live := live - {hwnd};
    }

    /** `DestroyWindow`: WM_DESTROY and WM_NCDESTROY through the procedure, then the handle is dead. */
    method DestroyWindow(hwnd: Hwnd) returns (o: Outcome<()>)
      requires Valid()
      modifies this, client, client.thread, slots.Values
      ensures Valid()
      ensures (Snapshot(), o) == Destroyed(old(Snapshot()), hwnd, handler, std)
    {
      ValidWorldOf();
      ghost var w0 := Snapshot();
      if hwnd !in live {
        // `DestroyWindow` fails on a handle that is no window and sends nothing.
        o := Returned(());
        ForeignHandlesIgnored(w0, hwnd, WM_DESTROY, None, handler, std);
        ForeignHandlesIgnored(w0, hwnd, WM_NCDESTROY, None, handler, std);
        assert w0.(live := w0.live - {hwnd}) == w0;
        return;
      }
      ghost var r1 := HandleMessage(w0, hwnd, WM_DESTROY, None, handler, std);
      var o1 := WindowProcedure(hwnd, WM_DESTROY, 0, 0, None);
      AbortOnPanicDropsAnswer(r1.1, defaultProc(false, Msg(hwnd, WM_DESTROY, 0, 0)));
      assert Snapshot() == r1.0 && o1.Returned? == r1.1.Returned?;
      if !o1.Returned? {
        o := WithValue(o1, ());
        assert Destroyed(w0, hwnd, handler, std) == (r1.0, AbortOnPanic(r1.1));
        return;
      }
      ghost var r2 := HandleMessage(r1.0, hwnd, WM_NCDESTROY, None, handler, std);
      var o2 := WindowProcedure(hwnd, WM_NCDESTROY, 0, 0, None);
      AbortOnPanicDropsAnswer(r2.1, defaultProc(false, Msg(hwnd, WM_NCDESTROY, 0, 0)));
      assert Snapshot() == r2.0;
      assert hwnd !in slots by {
        assert hwnd !in r2.0.windows;
      }
      Retire(hwnd);
      o := WithValue(o2, ());
      assert Destroyed(w0, hwnd, handler, std) == (r2.0.(live := r2.0.live - {hwnd}), AbortOnPanic(r2.1));
    }

    /**
     * The end of `create_window`: count the window, then re-raise a parked panic, which
     * drops the `Window` on its way out.
     */
    method FinishCreate(hwnd: Hwnd) returns (r: Outcome<Result<Hwnd, Error>>)
      requires Valid()
      modifies this, client, client.thread, slots.Values
      ensures Valid()
      ensures (Snapshot(), r) == Finished(old(Snapshot()), hwnd, handler, std)
    {
      ValidWorldOf();
      ghost var before := Snapshot();
      var inc := client.IncrementWindowCount();
      assert Snapshot() == before.(count := client.windowCount);
      if !inc.Returned? {
        r := WithValue(inc, Ok(hwnd));
        return;
      }
      if hwnd !in slots {
        assert hwnd !in Snapshot().windows;
        r := Undefined(NULL_DATA_CALL);
        return;
      }
      var p := PropagateAt(hwnd);
      if p.Panicked? {
        var d := DestroyWindow(hwnd);
        r := if d.Returned? then Panicked(p.payload) else WithValue(d, Ok(hwnd));
      } else {
        r := WithValue(p, Ok(hwnd));
      }
    }

    /**
     * `Client::create_window`, given the handle the system gives the new window (0 when
     * `CreateWindowExA` fails at once), whether the system abandons it after WM_NCCREATE,
     * and the thread's error state; the messages the system sends during creation are
     * delivered to this class's window procedure.
     */
    method CreateWindow(userData: UserData, hwnd: Hwnd, abandoned: bool, sys: SystemError)
      returns (r: Outcome<Result<Hwnd, Error>>)
      requires Valid() && hwnd !in live
      modifies this, client, client.thread, slots.Values
      ensures Valid()
      ensures (Snapshot(), r) == CreateOutcome(old(Snapshot()), hwnd, abandoned, userData, handler, std, sys)
    {
      ValidWorldOf();
      if hwnd == 0 {
        var e := LastError("CreateWindowEx", sys);
        r := Returned(Err(e));
        return;
      }
      ghost var w := Snapshot();
      Admit(hwnd);
      ghost var m := CreationMessages(w.(live := w.live + {hwnd}), hwnd, userData, handler, std, abandoned);
      var o := SendCreationMessages(hwnd, userData, abandoned);
      assert (Snapshot(), o) == m;
      if !o.Returned? {
        r := WithValue(o, Ok(hwnd));
        assert CreateOutcome(w, hwnd, abandoned, userData, handler, std, sys) == (m.0, WithValue(o, Ok(hwnd)));
        return;
      }
      if abandoned {
        // The system destroyed the window; `create_window` then frees the user data again.
        assert hwnd !in slots by {
          assert hwnd !in m.0.windows;
        }
        Retire(hwnd);
        r := Undefined(DOUBLE_FREE);
        assert CreateOutcome(w, hwnd, abandoned, userData, handler, std, sys)
          == (m.0.(live := m.0.live - {hwnd}), Undefined(DOUBLE_FREE));
        return;
      }
      assert CreateOutcome(w, hwnd, abandoned, userData, handler, std, sys) == Finished(m.0, hwnd, handler, std);
      r := FinishCreate(hwnd);
    }
  }
}

=== FILE: wrappers.dfy ===
/** The usual Option and Result datatypes, standing for Rust's own. */
module Wrappers {

  datatype Option<+T> = None | Some(value: T)

  datatype Result<+T, +E> = Ok(value: T) | Err(error: E)
}
